=== FILE: README.md ===
# satdb catalog core in Dafny

This project models the core of **satdb**, a Django satellite catalog. The
catalog holds four tables: owners, satellites, payloads and launchers. A
background updater reconciles the satellite table with an external feed of
satellite records. A GraphQL API lists the tables and creates or updates
their rows.

The database is an in-memory store (`Models.Store`). Each table is a map from
primary key to row, and each table has an auto-increment counter. The store
invariants are the constraints `satapp/models.py` declares:

- `sat_id` is unique but nullable.
- A satellite's owner is a nullable foreign key.
- A payload's satellite is a mandatory foreign key.
- Launchers and satellites are linked many-to-many.
- Character columns have declared `max_length` bounds.

Deletion follows the `on_delete` rules, as the admin site exposes it.

The channel layer is an append-only list of messages. Both updaters are pure
folds over an already-parsed record list:

- The stand-alone fetch service (`fetch_service/tle_updater.py`) keys
  `get_or_create` on (`name`, `sat_id`). It announces only the rows it
  creates.
- The older in-app updater (`satapp/utils/tle_updater.py`) keys on `name`
  only. It broadcasts once for every record, as its loop body would if the
  broadcast call were accepted (see "## Left out").

In both, nothing catches an exception. The first one ends the cycle, and the
records before it stay applied. It also ends the `while True` loop around the
cycle, so no later cycle runs. The fetch service's process exits from
`asyncio.run` (fetch_service/tle_updater.py:78), and the in-app updater's
daemon thread dies (satapp/utils/tle_updater.py:45-48).

The ORM calls the code relies on are modelled over the store with Django's
semantics (`Orm`):

- `objects.get` raises `DoesNotExist` or `MultipleObjectsReturned`.
- `objects.get_or_create` does a `get` and, if nothing matched, an insert.
- An insert that breaks a constraint raises `IntegrityError`.
- `filter(id__in=...)` drops unknown keys.
- `objects.all()` lists rows in key order.

Modules, one per file: `Wrappers` (Option, Result), `Models` (entities,
store, invariants, deletion), `Orm`, `Feed` (parsed feed records),
`FetchUpdater`, `SatappUpdater` and `Schema` (the GraphQL queries and
mutations).

## Model

| member | source | states |
|---|---|---|
| Models.DeleteOwner | satapp/models.py:50-52 | Deleting an owner removes only that owner. Its satellites stay, with `owner` cleared (SET_NULL). All other rows are unchanged. Integrity and bounds are preserved. |
| Models.DeleteSatellite | satapp/models.py:73-75 | Deleting a satellite removes exactly the payloads that reference it (CASCADE). It removes its launcher links and keeps everything else. Integrity and bounds are preserved. |
| Models.DeletePayload | satapp/admin.py:37 | Deleting a payload (admin-registered) removes that row only. No other table changes. Integrity is preserved. |
| Models.DeleteLauncher | satapp/models.py:96 | Deleting a launcher drops it and its links; the linked satellites stay. Integrity is preserved. |
| Orm.Get | satapp/schema.py:107 | `objects.get` succeeds exactly when one row matches, and then returns that row. It returns DoesNotExist exactly when no row matches. Otherwise it returns MultipleObjectsReturned. |
| Orm.All | satapp/schema.py:71 | `objects.all()` lists every row of the table with its key, once each, in key order, and nothing else. |
| Orm.ListingSize | satapp/schema.py:71 | A listing of a table has exactly as many rows as the table. |
| Orm.ListingAfterInsert | satapp/schema.py:71 | After a row is inserted under a fresh key, the listing contains that row and has grown by exactly one. |
| Orm.InsertSatellite | satapp/models.py:46 | A satellite insert fails with the unique-`sat_id` error when another row holds the same non-null `sat_id`. It fails with the owner-key error when the owner is missing. Otherwise it adds exactly the row under a fresh key and keeps integrity. |
| Orm.GetOrCreateSatellite | fetch_service/tle_updater.py:47-49 | `get_or_create` returns the single matching row without changing the store. With no match it creates the row, or fails exactly as the insert does. With several matches it fails with MultipleObjectsReturned. It never removes or alters existing rows. |
| FetchUpdater.UpdateSatellite | fetch_service/tle_updater.py:45-69 | One record's `update_satellite` keeps the store's integrity and never removes or alters an existing satellite. |
| FetchUpdater.KnownStepIsIdle | fetch_service/tle_updater.py:47-53 | A record whose (`name`, `sat_id`) pair is stored changes nothing and publishes nothing. |
| FetchUpdater.StepMakesKnown | fetch_service/tle_updater.py:47-51 | A record that went through without an exception had both keys, and its pair is stored afterwards. |
| FetchUpdater.UpdateSatelliteCases | fetch_service/tle_updater.py:45-69 | A missing `name`, then a missing `satelliteId`, raises KeyError. A known (`name`, `sat_id`) pair changes nothing and publishes nothing. An unseen pair whose `sat_id` another row holds fails on the unique constraint. Otherwise one row with NULL TLE columns is created under a fresh key, and exactly its snapshot is published. |
| FetchUpdater.UpdateSatelliteShape | fetch_service/tle_updater.py:53-69 | A successful step is either silent and changes nothing, or creates one row and announces exactly that row. |
| FetchUpdater.Cycle | fetch_service/tle_updater.py:40-42 | A cycle keeps the store's integrity and never removes or alters an existing satellite. |
| FetchUpdater.RunCycle | fetch_service/tle_updater.py:39-42 | A missing `member` key yields no change and no messages. Otherwise the cycle runs over exactly the list under `member`. |
| FetchUpdater.CycleAppend | fetch_service/tle_updater.py:40-42 | Records are processed in list order. A cycle over `a + b` is the cycle over `a` followed, unless it failed, by the cycle over `b`. |
| FetchUpdater.CycleStopsAtFailure | fetch_service/tle_updater.py:40-49 | A failed cycle stops at some record `k`. The records before `k` stay applied with their messages. Record `k` raised the reported error, and nothing after it was processed. |
| FetchUpdater.CycleCountsCreations | fetch_service/tle_updater.py:53-69 | The number of messages a cycle publishes equals the number of rows it creates. |
| FetchUpdater.CycleAnnouncesNewRows | fetch_service/tle_updater.py:55-69 | Every message goes to group `satellite_update` with type `satellite.updated`. Each carries the snapshot of a row the cycle created, and that row has NULL `tle_date`, `line1` and `line2`. |
| FetchUpdater.CycleMakesKnown | fetch_service/tle_updater.py:47-51 | After a cycle that did not fail, every record has both keys and its (`name`, `sat_id`) pair is stored. |
| FetchUpdater.KnownCycleIsIdle | fetch_service/tle_updater.py:47-53 | A cycle over records whose pairs are all stored changes nothing and publishes nothing. |
| FetchUpdater.CycleIdempotent | fetch_service/tle_updater.py:47-53 | Re-running a fully processed list leaves the store unchanged and publishes zero messages. |
| FetchUpdater.CycleIgnoresTle | fetch_service/tle_updater.py:47-51 | The feed's `date`, `line1` and `line2` have no effect: lists that agree on names and ids give the same outcome. |
| FetchUpdater.StepPreservesBounds | fetch_service/tle_updater.py:47-51 | One record keeps every declared length bound when its name respects its bound. |
| FetchUpdater.CyclePreservesBounds | satapp/models.py:45-49 | A cycle keeps every declared length bound when the feed's names respect theirs. |
| SatappUpdater.UpdateSatellite | satapp/utils/tle_updater.py:29-37 | One record's loop body keeps the store's integrity and never removes or alters an existing satellite. |
| SatappUpdater.StepReports | satapp/utils/tle_updater.py:30-37 | A successful step broadcasts exactly one message on `satellite_updated`, naming the one satellite that now bears the record's name. |
| SatappUpdater.UpdateSatelliteUnseen | satapp/utils/tle_updater.py:30-37 | An unseen name creates one row with that name and NULL `sat_id`, TLE columns and owner, under a fresh key. That key is broadcast on `satellite_updated`. |
| SatappUpdater.UpdateSatelliteFound | satapp/utils/tle_updater.py:30-37 | A name held by exactly one satellite leaves the store unchanged and broadcasts that satellite. |
| SatappUpdater.UpdateSatelliteAmbiguous | satapp/utils/tle_updater.py:30-31 | A name held by two satellites raises MultipleObjectsReturned. |
| SatappUpdater.UpdateSatelliteNameless | satapp/utils/tle_updater.py:31 | A record without `name` raises KeyError. |
| SatappUpdater.UpdateSatelliteSucceeded | satapp/utils/tle_updater.py:30-37 | After a successful step, exactly one satellite bears the record's name and it is the one broadcast. Either nothing changed, or it is the one new row. |
| SatappUpdater.Cycle | satapp/utils/tle_updater.py:28 | A cycle keeps the store's integrity and never removes or alters an existing satellite. |
| SatappUpdater.CycleStopsAtFailure | satapp/utils/tle_updater.py:28-37 | A failed cycle stops at some record `k`. The earlier records stay applied with their broadcasts, and record `k` raised the reported error. |
| SatappUpdater.StepKeepsNamesUnique | satapp/utils/tle_updater.py:30-33 | A successful step keeps every uniquely held name uniquely held. |
| SatappUpdater.CycleReportsEveryRecord | satapp/utils/tle_updater.py:28-37 | After a successful cycle, every record's name belongs to exactly one satellite. There is exactly one broadcast per record, in order, naming that satellite. |
| SatappUpdater.CycleKeepsNamesUnique | satapp/utils/tle_updater.py:28-33 | A successful cycle keeps every uniquely held name uniquely held. |
| SatappUpdater.NamedCycleIsIdle | satapp/utils/tle_updater.py:30-37 | A cycle over uniquely held names changes nothing, succeeds, and broadcasts each record's satellite. |
| SatappUpdater.CycleRerun | satapp/utils/tle_updater.py:28-37 | Re-running a successful cycle leaves the store unchanged and sends the very same broadcasts again. |
| SatappUpdater.StepStoredNames | satapp/utils/tle_updater.py:30-31 | One successful step adds its name to the stored names. It adds a row exactly when the name was not stored. |
| SatappUpdater.CycleStoredNames | satapp/utils/tle_updater.py:28-31 | After a successful cycle, the stored names are the former names plus the records' names. |
| SatappUpdater.CycleCreatesUnseenNames | satapp/utils/tle_updater.py:28-31 | A successful cycle adds exactly one row per distinct record name that was not stored before. |
| SatappUpdater.StepPreservesBounds | satapp/utils/tle_updater.py:30-31 | One record keeps every declared length bound when its name respects its bound; the row it may create has only a name. |
| SatappUpdater.CyclePreservesBounds | satapp/models.py:45-49 | An in-app cycle keeps every declared length bound when the feed's names respect theirs. |
| SatappUpdater.CycleIgnoresAllButName | satapp/utils/tle_updater.py:30-31 | Record fields other than `name` have no effect: lists that agree on names give the same outcome. |
| Schema.AllSatellites | satapp/schema.py:67-71 | Lists every satellite with its key, once each, in key order, and nothing else. |
| Schema.AllOwners | satapp/schema.py:73-77 | Lists every owner with its key, once each, in key order, and nothing else. |
| Schema.AllLaunchers | satapp/schema.py:79-83 | Lists every launcher with its key, once each, in key order, and nothing else. |
| Schema.AllPayloads | satapp/schema.py:85-89 | Lists every payload with its key, once each, in key order, and nothing else. |
| Schema.CreateSatellite | satapp/schema.py:107-110 | An unknown owner gives DoesNotExist. Otherwise exactly one satellite is added under a fresh key, with the name and owner and nothing else set. Other tables are unchanged. Integrity and bounds are kept. |
| Schema.UpdateSatellite | satapp/schema.py:126-129 | An unknown key gives DoesNotExist. Otherwise only the addressed satellite's name changes; its other fields and all other rows stay. |
| Schema.CreateOwner | satapp/schema.py:148-150 | Exactly one owner is added under a fresh key with the given name and country. Nothing else changes. |
| Schema.UpdateOwner | satapp/schema.py:169-175 | An unknown key gives DoesNotExist. Each of `name` and `country` is overwritten when given and kept when omitted. Other rows stay. |
| Schema.UnknownIdIsDropped | satapp/schema.py:194 | Appending an id that names no satellite leaves the answer of `filter(id__in=ids)` unchanged. |
| Schema.FilterIgnoresOrderAndRepeats | satapp/schema.py:194 | The answer of `filter(id__in=ids)` depends only on which ids occur, not on their order or repetitions. |
| Schema.FilterAnswerBounded | satapp/schema.py:194-198 | A launcher linked through `filter(id__in=ids)` gets at most as many satellites as ids were given. |
| Schema.CreateLauncher | satapp/schema.py:194-198 | Exactly one launcher is added. Through `filter(id__in=ids)` it is linked to exactly the existing satellites among the ids; unknown ids are dropped. Other launchers and tables stay. |
| Schema.UpdateLauncher | satapp/schema.py:219-228 | An unknown key gives DoesNotExist. Type and date change only when given. A given id list replaces the links by the existing satellites among it, as `filter(id__in=ids)` finds them. Other rows stay. |
| Schema.CreatePayloadAsWritten | satapp/schema.py:249-255 | As written, an unknown satellite gives DoesNotExist, and an omitted `description` fails on the NOT NULL column. It succeeds exactly when both are present, adding one payload, and keeps the length bounds when provider and type respect theirs. |
| Schema.CreatePayload | satapp/schema.py:249-255 | An unknown satellite gives DoesNotExist. Otherwise one payload is added with the given fields; an omitted description is stored as empty text. |
| Schema.UpdatePayload | satapp/schema.py:278-288 | An unknown key gives DoesNotExist, and a given `satellite_id` naming no satellite fails on the foreign key. Otherwise each field changes only when given, and other rows stay. |
| Schema.CreatedOwnerIsListed | satapp/schema.py:148-150 | A created owner appears in the next `allOwners`, which grows by exactly one. |
| Schema.CreatedSatelliteIsListed | satapp/schema.py:107-110 | A created satellite appears in the next `allSatellites`, which grows by exactly one. |
| Schema.UpdateOwnerWithoutFieldsIsIdentity | satapp/schema.py:169-175 | Updating an owner with no field given saves it unchanged. |
| Schema.RenameSatelliteBack | satapp/schema.py:126-129 | Renaming a satellite and renaming it back restores the store. |
| Schema.UpdateOwnerTwice | satapp/schema.py:169-175 | Two owner updates equal one carrying, per field, the later value when given, else the earlier one. |
| Schema.LaunchersShareSatellites | satapp/models.py:96 | One satellite can be linked from two launchers at once. |
| Schema.PayloadDiesWithSatellite | satapp/models.py:73-75 | A payload created for a satellite is gone once that satellite is deleted, and integrity holds. |
| Schema.SatelliteOutlivesOwner | satapp/models.py:50-52 | A satellite created for an owner survives the owner's deletion, with its owner cleared. |
| Schema.CreatePayloadRejectsOmittedDescription | satapp/schema.py:238 | On any store with a satellite, and for any provider and type, the as-written payload creation without `description` fails on the NOT NULL column, while the corrected one succeeds. |

## Left out

- Fetching the feed over HTTP, decoding the JSON, the `while True` loop, `asyncio.sleep(60)`, the daemon thread and the sync/async bridges. The model covers one cycle over an already-parsed record list.
- The in-app updater calls `Satellite.objects.get_or_create` directly inside `async def update_satellites` (satapp/utils/tle_updater.py:24-33), which runs under `loop.run_until_complete` (line 48). Django 4.2, the version satapp/migrations/0001_initial.py:1 records, refuses ORM access from a thread with a running event loop and raises `SynchronousOnlyOperation`. The model gives the loop body's "find or create, then broadcast" as it would behave if the call were bridged to synchronous code, as the fetch service bridges it.
- The in-app broadcast call passes `channel="satellite_updated"` (satapp/utils/tle_updater.py:35-37). `SatelliteSubscription` (satapp/schema.py:305-324) defines no `broadcast` of its own, so the call goes to the one it inherits from `channels_graphql_ws.Subscription` (imported at satapp/schema.py:9). That library's `broadcast` takes keyword-only `group` and `payload` and no `channel`, so the call raises TypeError after the first record's `get_or_create` and `save()`: no broadcast is sent and the `while True` loop ends. `SatappUpdater.Broadcast` is one broadcast per record, as the loop body would send if the call named its group with the library's keyword.
- String equality in the `get_or_create` lookups (`FetchUpdater.Lookup`, `SatappUpdater.NameLookup`) is exact, as under a binary collation (SQLite and PostgreSQL by default). The database settings are not part of this model; under a case- or accent-insensitive collation (the MySQL/MariaDB defaults) a record `("iss", 25544)` would match a stored `("ISS", 25544)` and leave the store unchanged, where the model reports the unique-`sat_id` IntegrityError.
- Concurrency: race-safety of `get_or_create` between concurrent callers is a database guarantee, so the model is sequential.
- Delivery of published messages (the channel layer, `SatelliteSubscription`, the websocket consumers and routing). Publishing appends to a sequence.
- Graphene argument parsing and coercion. `satelliteId` is taken as an integer; a JSON `null` or a string id is not modelled. Arguments GraphQL marks required are plain parameters.
- A JSON `null` value for a feed record's `name`: `Feed.Record` uses `None` for a missing key only. In the source a null name makes `get_or_create` look up `name=None`, which matches no row, then insert a row with a NULL `name`. The NOT NULL `name` column (satapp/models.py:45) rejects that with IntegrityError, which ends the batch in both updaters (fetch_service/tle_updater.py:47-48, satapp/utils/tle_updater.py:30-31).
- A feed whose `member` is JSON `null`: `Feed.Envelope` uses `None` for an absent key only. In the source `tle_data.get('member', [])` then returns `None`, and `for data in None` raises TypeError (fetch_service/tle_updater.py:39-40), which ends the `while True` loop.
- The in-app updater iterates the fetched value itself (satapp/utils/tle_updater.py:28), although it reads the same `SATELLITE_FEED_URL` as the fetch service (satapp/utils/tle_updater.py:10, fetch_service/tle_updater.py:21), which expects an object with a `member` list. On such an object its loop receives the key string `"member"`, and `data['name']` raises TypeError before any ORM call. `SatappUpdater` assumes a feed whose body is a bare list of records.
- The per-record `logger.info("Fetched satellite: %s", data)` (fetch_service/tle_updater.py:41, satapp/utils/tle_updater.py:29): logging has no effect on the store or the messages.
- The bounded range of `sat_id = models.IntegerField` (satapp/models.py:46): `sat_id` is an unbounded `int`. As with `max_length`, whether an out-of-range value is rejected depends on the database backend.
- Negative GraphQL `Int` ids (`owner_id`, `satellite_id`; satapp/schema.py:99, 236, 264): keys are `nat`, so a negative id cannot be passed. The source treats it like any key with no row (DoesNotExist, or the foreign-key rejection), which the model states for every absent key.
- The mutations' output fields: each mutation class declares its output as a bare annotation (`satellite: graphene.Field(SatelliteType)`, satapp/schema.py:101, 120, 141, 161, 186, 210, 240, 268) rather than an assignment such as `satellite_updated: graphene.Field = ...` at line 311. That binds no class attribute, so graphene sees no output field, and `return CreateX(x=...)` (lines 110, 129, 150, 175, 199, 228, 255, 288) would raise TypeError after `save()`. The model states each mutation's store effect, everything its body does before the `return`, and `Schema.Saved` is what the body would return if the output fields were assigned.
- The fixture generator (random and file-writing), the migrations, the admin display settings, the CSRF middleware, app configuration and the web front end.
- `satapp/schema.py` as written does not import. Line 135 is mis-indented, and `QuerySet`, `List` and `date` (first used at lines 69, 190 and 192) are never imported. Both updaters import that module (fetch_service/tle_updater.py:20, satapp/utils/tle_updater.py:9), so they would not load either. The resolver bodies and both updaters are modelled as if the module loaded.
- `max_length` is not checked on save: whether a save enforces it depends on the database backend, which the repository's model code does not fix. The bounds are store invariants that every operation preserves when its inputs respect them.
- `objects.all()` has no declared ordering. The model lists rows in key order, which is insertion order.
- Timestamps are uninterpreted text and dates are unvalidated (year, month, day) triples; the model does no date arithmetic or validation.
- Deleting an absent key deletes nothing, as a queryset delete does. An admin delete of a missing object is not modelled separately.

## Findings

| source | as written | input that shows it | evidently intended | confidence | as-written member | corrected member |
|---|---|---|---|---|---|---|
| satapp/schema.py:238-254 | `description` is an optional argument. When it is omitted, `Payload(description=None)` is saved into `description = models.TextField()`, which is NOT NULL, so `save()` raises IntegrityError. | `createPayload(provider: "SpaceX", satelliteId: <existing>, type: "Camera")` with no `description` | An omitted description creates the payload, with an empty description | not executed | Schema.CreatePayloadAsWritten, Schema.CreatePayloadRejectsOmittedDescription | Schema.CreatePayload |

=== FILE: feed.dfy ===
/** The parsed feed, as both updaters receive it once the HTTP body has been
    decoded from JSON. */
module Feed {
  import opened Wrappers

  /** One satellite object of the feed.  A `None` field is a key the JSON
      object lacks; `satelliteId` is already an integer. */
  datatype Record = Record(
    name: Option<string>,
    satelliteId: Option<int>,
    date: Option<string>,
    line1: Option<string>,
    line2: Option<string>)

  /** The top-level JSON object; `member` is `None` when the key is absent. */
  datatype Envelope = Envelope(member: Option<seq<Record>>)
}

=== FILE: fetch_updater.dfy ===
/** One cycle of the stand-alone fetch service (`TLEUpdater` of
    `fetch_service/tle_updater.py`), after the feed has been fetched and
    parsed: the records under `member` are folded, in order, through
    `update_satellite`, which gets or creates the satellite keyed by
    (`name`, `sat_id`) and publishes a snapshot of the row only when it was
    created.  The channel layer is an append-only list of group messages.
    Nothing catches an exception: the first one ends the cycle and, with
    it, the service's `while True` loop, so no later cycle runs; what was
    applied before it stays. */
module FetchUpdater {
  import opened Wrappers
  import opened Models
  import opened Orm
  import opened Feed

  const Group := "satellite_update"
  const MessageType := "satellite.updated"

  /** The `data` of a message: the row as it is after `save()`. */
  datatype Snapshot = Snapshot(
    id: Id,
    satId: Option<int>,
    name: string,
    tleDate: Option<Timestamp>,
    line1: Option<string>,
    line2: Option<string>)

  /** A `group_send` to the channel layer. */
  datatype Message = Message(group: string, kind: string, data: Snapshot)

  /** The message announcing satellite `id` with row `s`. */
  function Announce(id: Id, s: Satellite): (r: Message) {
    Message(Group, MessageType, Snapshot(id, s.satId, s.name, s.tleDate, s.line1, s.line2))
  }

  /** The record carries both keys `update_satellite` reads. */
  predicate Keyed(rec: Record) {
    rec.name.Some? && rec.satelliteId.Some?
  }

  /** The `get_or_create` lookup of a keyed record. */
  function Lookup(rec: Record): (r: Satellite -> bool)
    requires Keyed(rec)
  {
    (s: Satellite) => s.name == rec.name.value && s.satId == Some(rec.satelliteId.value)
  }

  /** A satellite with the record's name and `sat_id` is already stored. */
  ghost predicate Known(st: Store, rec: Record)
    requires Keyed(rec)
  {
    exists id :: id in st.satellites && st.satellites[id].name == rec.name.value && st.satellites[id].satId == Some(rec.satelliteId.value)
  }

  /** The row `get_or_create` inserts: only `name` and `sat_id` are given,
      every other column keeps its default. */
  function NewRow(rec: Record): (r: Satellite)
    requires Keyed(rec)
  {
    Satellite(rec.name.value, Some(rec.satelliteId.value), None, None, None, None)
  }

  /** The store and the messages after one record. */
  datatype Applied = Applied(store: Store, events: seq<Message>)

  /** `TLEUpdater.update_satellite(data)`; `UpdateSatelliteCases` states
      what it does in each case. */
  function UpdateSatellite(st: Store, rec: Record): (r: Result<Applied, Error>)
    requires Consistent(st)
    ensures r.Success? ==> Consistent(r.value.store) && SatellitesKept(st, r.value.store)
  {
    if rec.name.None? then Failure(KeyError("name"))
    else if rec.satelliteId.None? then Failure(KeyError("satelliteId"))
    else
      var got := GetOrCreateSatellite(st, Lookup(rec), NewRow(rec));
      if got.Failure? then Failure(got.error)
      else
        var st' := got.value.store;
        var id := got.value.id;
        if got.value.created then Success(Applied(st', [Announce(id, st'.satellites[id])]))
        else Success(Applied(st', []))
  }

  /** The cases of `update_satellite`: a missing key raises `KeyError`
      (`name` is read first); a known (`name`, `sat_id`) pair leaves the
      store alone and publishes nothing; an unseen pair whose `sat_id` is
      held by a differently named satellite violates the unique constraint;
      otherwise exactly one row is created under a fresh key, carrying only
      the name and `sat_id`, and exactly one snapshot of it is published. */
  lemma UpdateSatelliteCases(st: Store, rec: Record)
    requires Consistent(st)
    ensures var r := UpdateSatellite(st, rec);
            && (rec.name.None? ==> r == Failure(KeyError("name")))
            && (rec.name.Some? && rec.satelliteId.None? ==> r == Failure(KeyError("satelliteId")))
            && (Keyed(rec) && Known(st, rec) ==> r == Success(Applied(st, [])))
            && (Keyed(rec) && !Known(st, rec) && SatIdTaken(st.satellites, Some(rec.satelliteId.value)) ==>
                  r == Failure(IntegrityError(UniqueSatId)))
            && (Keyed(rec) && !Known(st, rec) && !SatIdTaken(st.satellites, Some(rec.satelliteId.value)) ==>
                  && r.Success?
                  && |r.value.events| == 1
                  && var id := r.value.events[0].data.id;
                     && id !in st.satellites
                     && r.value.store.satellites == st.satellites[id := NewRow(rec)]
                     && r.value.store == st.(satellites := r.value.store.satellites, nextSatellite := r.value.store.nextSatellite)
                     && r.value.events[0] == Announce(id, NewRow(rec)))
  {
    if Keyed(rec) && Known(st, rec) {
      var id :| id in st.satellites && Lookup(rec)(st.satellites[id]);
    }
  }

  /** The outcome of a cycle: the final store, every message published, and
      the exception that stopped the loop, if any. */
  datatype Outcome = Outcome(store: Store, events: seq<Message>, failure: Option<Error>)

  /** The `for data in satellites` loop of `update_satellites`. */
  function Cycle(st: Store, recs: seq<Record>): (r: Outcome)
    requires Consistent(st)
    decreases |recs|
    ensures Consistent(r.store) && SatellitesKept(st, r.store)
  {
    if recs == [] then Outcome(st, [], None)
    else
      var step := UpdateSatellite(st, recs[0]);
      if step.Failure? then Outcome(st, [], Some(step.error))
      else
        var rest := Cycle(step.value.store, recs[1..]);
        Outcome(rest.store, step.value.events + rest.events, rest.failure)
  }

  /** One pass of the `while True` body: the list under `member` (an empty
      list when the key is missing) is run through `Cycle`. */
  function RunCycle(st: Store, feed: Envelope): (r: Outcome)
    requires Consistent(st)
    ensures feed.member.None? ==> r == Outcome(st, [], None)
    ensures feed.member.Some? ==> r == Cycle(st, feed.member.value)
  {
    Cycle(st, feed.member.GetOr([]))
  }

  /** Running `a` and then, unless it failed, `b` from where it stopped. */
  function Continue(first: Outcome, b: seq<Record>): (r: Outcome)
    requires Consistent(first.store)
  {
    if first.failure.Some? then first
    else
      var second := Cycle(first.store, b);
      Outcome(second.store, first.events + second.events, second.failure)
  }

  /** Records are processed strictly in list order: a cycle over `a + b` is
      the cycle over `a` followed by the cycle over `b`. */
  lemma {:induction false} CycleAppend(st: Store, a: seq<Record>, b: seq<Record>)
    requires Consistent(st)
    ensures Cycle(st, a + b) == Continue(Cycle(st, a), b)
    decreases |a|
  {
    if a == [] {
      assert a + b == b;
    } else {
      assert (a + b)[0] == a[0];
      assert (a + b)[1..] == a[1..] + b;
      var step := UpdateSatellite(st, a[0]);
      if step.Success? {
        CycleAppend(step.value.store, a[1..], b);
        CycleAppendStep(st, a, b);
      }
    }
  }

  /** The inductive step of `CycleAppend`, once the first record went
      through. */
  lemma CycleAppendStep(st: Store, a: seq<Record>, b: seq<Record>)
    requires Consistent(st) && a != []
    requires (a + b)[0] == a[0] && (a + b)[1..] == a[1..] + b
    requires UpdateSatellite(st, a[0]).Success?
    requires var st' := UpdateSatellite(st, a[0]).value.store;
             Cycle(st', a[1..] + b) == Continue(Cycle(st', a[1..]), b)
    ensures Cycle(st, a + b) == Continue(Cycle(st, a), b)
  {
    var step := UpdateSatellite(st, a[0]).value;
    var first := Cycle(step.store, a[1..]);
    if first.failure.None? {
      var second := Cycle(first.store, b);
      assert step.events + (first.events + second.events) == (step.events + first.events) + second.events;
    }
  }

  /** An uncaught exception stops the batch part-way: some record `k` failed
      against the store left by the records before it, those records stay
      applied with their messages, and no later record is looked at. */
  lemma {:induction false} CycleStopsAtFailure(st: Store, recs: seq<Record>) returns (k: nat)
    requires Consistent(st)
    requires Cycle(st, recs).failure.Some?
    ensures k < |recs|
    ensures var before := Cycle(st, recs[..k]);
            && before.failure.None?
            && before.store == Cycle(st, recs).store
            && before.events == Cycle(st, recs).events
            && UpdateSatellite(before.store, recs[k]) == Failure(Cycle(st, recs).failure.value)
    decreases |recs|
  {
    var step := UpdateSatellite(st, recs[0]);
    if step.Failure? {
      k := 0;
      assert recs[..0] == [];
    } else {
      var st' := step.value.store;
      var k' := CycleStopsAtFailure(st', recs[1..]);
      k := k' + 1;
      var pre := recs[..k];
      assert pre[0] == recs[0];
      assert pre[1..] == recs[1..][..k'];
      assert recs[k] == recs[1..][k'];
      assert step.value.events + Cycle(st', pre[1..]).events == step.value.events + Cycle(st', recs[1..]).events;
    }
  }

  /** The row has no TLE data yet. */
  ghost predicate NoTle(s: Satellite) {
    s.tleDate.None? && s.line1.None? && s.line2.None?
  }

  /** One new row without TLE data was added to `st`, and `a` publishes
      exactly its snapshot. */
  ghost predicate CreatedOne(st: Store, a: Applied) {
    && |a.events| == 1
    && var id := a.events[0].data.id;
       && id !in st.satellites
       && id in a.store.satellites
       && a.store.satellites == st.satellites[id := a.store.satellites[id]]
       && a.events[0] == Announce(id, a.store.satellites[id])
       && NoTle(a.store.satellites[id])
  }

  /** A successful `update_satellite` either changes nothing and is silent,
      or creates one row and announces it. */
  lemma UpdateSatelliteShape(st: Store, rec: Record)
    requires Consistent(st)
    ensures var r := UpdateSatellite(st, rec);
            r.Success? ==> r.value == Applied(st, []) || CreatedOne(st, r.value)
  {
    UpdateSatelliteCases(st, rec);
  }

  /** A cycle publishes exactly one message per row it creates, even when it
      stops early. */
  lemma {:induction false} CycleCountsCreations(st: Store, recs: seq<Record>)
    requires Consistent(st)
    ensures |Cycle(st, recs).store.satellites| == |st.satellites| + |Cycle(st, recs).events|
    decreases |recs|
  {
    if recs != [] {
      var step := UpdateSatellite(st, recs[0]);
      if step.Success? {
        UpdateSatelliteShape(st, recs[0]);
        CycleCountsCreations(step.value.store, recs[1..]);
      }
    }
  }

  /** Every message of `r` announces a row that is in `r.store` but was not
      in `st`, and that row has no TLE data. */
  ghost predicate AnnouncesNewRows(st: Store, r: Outcome) {
    forall i :: 0 <= i < |r.events| ==>
      && r.events[i].data.id in r.store.satellites
      && r.events[i].data.id !in st.satellites
      && r.events[i] == Announce(r.events[i].data.id, r.store.satellites[r.events[i].data.id])
      && NoTle(r.store.satellites[r.events[i].data.id])
  }

  /** A silent or single-creation step followed by a rest that announces
      only its own new rows announces only new rows as a whole. */
  lemma AnnouncesNewRowsCompose(st: Store, a: Applied, r: Outcome)
    requires a == Applied(st, []) || CreatedOne(st, a)
    requires SatellitesKept(a.store, r.store)
    requires AnnouncesNewRows(a.store, r)
    ensures AnnouncesNewRows(st, Outcome(r.store, a.events + r.events, r.failure))
  {
    var evs := a.events + r.events;
    forall i | 0 <= i < |evs|
      ensures && evs[i].data.id in r.store.satellites
              && evs[i].data.id !in st.satellites
              && evs[i] == Announce(evs[i].data.id, r.store.satellites[evs[i].data.id])
              && NoTle(r.store.satellites[evs[i].data.id])
    {
      if i >= |a.events| {
        assert evs[i] == r.events[i - |a.events|];
      } else {
        var id := a.events[0].data.id;
        assert i == 0 && evs[i] == a.events[0];
        assert a.store.satellites[id] == r.store.satellites[id];
      }
    }
  }

  /** Each message of a cycle goes to group `satellite_update` with type
      `satellite.updated` and carries the snapshot of a row the cycle
      created, whose `tle_date`, `line1` and `line2` are NULL. */
  lemma {:induction false} CycleAnnouncesNewRows(st: Store, recs: seq<Record>)
    requires Consistent(st)
    ensures AnnouncesNewRows(st, Cycle(st, recs))
    decreases |recs|
  {
    if recs != [] {
      var step := UpdateSatellite(st, recs[0]);
      if step.Success? {
        UpdateSatelliteShape(st, recs[0]);
        CycleAnnouncesNewRows(step.value.store, recs[1..]);
        AnnouncesNewRowsCompose(st, step.value, Cycle(step.value.store, recs[1..]));
      }
    }
  }

  /** A record that went through without an exception is keyed and known
      afterwards. */
  lemma StepMakesKnown(st: Store, rec: Record)
    requires Consistent(st)
    requires UpdateSatellite(st, rec).Success?
    ensures Keyed(rec) && Known(UpdateSatellite(st, rec).value.store, rec)
  {
    var got := GetOrCreateSatellite(st, Lookup(rec), NewRow(rec));
    var id := got.value.id;
    assert Lookup(rec)(got.value.store.satellites[id]);
  }

  /** A known record stays known while every row is kept. */
  lemma KnownKept(st: Store, st': Store, rec: Record)
    requires Keyed(rec) && Known(st, rec) && SatellitesKept(st, st')
    ensures Known(st', rec)
  {
    var id :| id in st.satellites && st.satellites[id].name == rec.name.value && st.satellites[id].satId == Some(rec.satelliteId.value);
    assert st'.satellites[id] == st.satellites[id];
  }

  /** After a cycle that did not fail, every record is keyed and known. */
  lemma {:induction false} CycleMakesKnown(st: Store, recs: seq<Record>)
    requires Consistent(st)
    requires Cycle(st, recs).failure.None?
    ensures forall i :: 0 <= i < |recs| ==> Keyed(recs[i]) && Known(Cycle(st, recs).store, recs[i])
    decreases |recs|
  {
    if recs != [] {
      var step := UpdateSatellite(st, recs[0]);
      var st' := step.value.store;
      var fin := Cycle(st', recs[1..]).store;
      CycleMakesKnown(st', recs[1..]);
      StepMakesKnown(st, recs[0]);
      KnownKept(st', fin, recs[0]);
      forall i | 0 <= i < |recs|
        ensures Keyed(recs[i]) && Known(fin, recs[i])
      {
        if i > 0 {
          assert recs[i] == recs[1..][i - 1];
        }
      }
    }
  }

  /** A keyed and known record changes nothing and publishes nothing. */
  lemma KnownStepIsIdle(st: Store, rec: Record)
    requires Consistent(st) && Keyed(rec) && Known(st, rec)
    ensures UpdateSatellite(st, rec) == Success(Applied(st, []))
  {
    UpdateSatelliteCases(st, rec);
  }

  /** A cycle over records that are all keyed and known changes nothing and
      publishes nothing. */
  lemma {:induction false} KnownCycleIsIdle(st: Store, recs: seq<Record>)
    requires Consistent(st)
    requires forall i :: 0 <= i < |recs| ==> Keyed(recs[i]) && Known(st, recs[i])
    ensures Cycle(st, recs) == Outcome(st, [], None)
    decreases |recs|
  {
    if recs != [] {
      KnownStepIsIdle(st, recs[0]);
      forall i | 0 <= i < |recs[1..]|
        ensures Keyed(recs[1..][i]) && Known(st, recs[1..][i])
      {
        assert recs[1..][i] == recs[i + 1];
      }
      KnownCycleIsIdle(st, recs[1..]);
    }
  }

  /** Idempotence: re-running a cycle on a list that was processed in full
      leaves the store as it is and publishes nothing. */
  lemma CycleIdempotent(st: Store, recs: seq<Record>)
    requires Consistent(st)
    requires Cycle(st, recs).failure.None?
    ensures Cycle(Cycle(st, recs).store, recs) == Outcome(Cycle(st, recs).store, [], None)
  {
    CycleMakesKnown(st, recs);
    KnownCycleIsIdle(Cycle(st, recs).store, recs);
  }

  /** Two lists that agree on every record's `name` and `satelliteId`. */
  ghost predicate SameIdentity(a: seq<Record>, b: seq<Record>) {
    |a| == |b| && forall i :: 0 <= i < |a| ==> a[i].name == b[i].name && a[i].satelliteId == b[i].satelliteId
  }

  /** The feed's `date`, `line1` and `line2` never reach the store or the
      messages: a cycle depends on each record's name and id only. */
  lemma {:induction false} CycleIgnoresTle(st: Store, a: seq<Record>, b: seq<Record>)
    requires Consistent(st)
    requires SameIdentity(a, b)
    ensures Cycle(st, a) == Cycle(st, b)
    decreases |a|
  {
    if a != [] {
      assert a[0].name == b[0].name && a[0].satelliteId == b[0].satelliteId;
      var step := UpdateSatellite(st, a[0]);
      if Keyed(a[0]) {
        assert NewRow(a[0]) == NewRow(b[0]);
        assert Lookup(a[0]) == Lookup(b[0]);
      }
      assert step == UpdateSatellite(st, b[0]);
      if step.Success? {
        assert SameIdentity(a[1..], b[1..]) by {
          forall i | 0 <= i < |a[1..]|
            ensures a[1..][i].name == b[1..][i].name && a[1..][i].satelliteId == b[1..][i].satelliteId
          {
            assert a[1..][i] == a[i + 1] && b[1..][i] == b[i + 1];
          }
        }
        CycleIgnoresTle(step.value.store, a[1..], b[1..]);
      }
    }
  }

  /** One record keeps the store within bounds when its name is. */
  lemma StepPreservesBounds(st: Store, rec: Record)
    requires Consistent(st) && WithinBounds(st)
    requires rec.name.Some? ==> |rec.name.value| <= MaxNameLength
    ensures UpdateSatellite(st, rec).Success? ==> WithinBounds(UpdateSatellite(st, rec).value.store)
  {
    if Keyed(rec) {
      assert RowWithinBounds(NewRow(rec));
    }
  }

  /** Rows created by a cycle respect the declared lengths whenever the names
      in the feed do (`line1`/`line2` are left NULL). */
  lemma {:induction false} CyclePreservesBounds(st: Store, recs: seq<Record>)
    requires Consistent(st) && WithinBounds(st)
    requires forall i :: 0 <= i < |recs| && recs[i].name.Some? ==> |recs[i].name.value| <= MaxNameLength
    ensures WithinBounds(Cycle(st, recs).store)
    decreases |recs|
  {
    if recs != [] {
      var step := UpdateSatellite(st, recs[0]);
      if step.Success? {
        var st' := step.value.store;
        StepPreservesBounds(st, recs[0]);
        assert forall i :: 0 <= i < |recs[1..]| ==> recs[1..][i] == recs[i + 1];
        CyclePreservesBounds(st', recs[1..]);
      }
    }
  }
}

=== FILE: models.dfy ===
/** The four catalog entities of `satapp/models.py` and the relational store
    that holds them.

    Each table is a map from primary key to row, together with the
    auto-increment counter the database uses to hand out the next key.  The
    store invariants are the constraints the model classes declare: the
    unique but nullable `sat_id`, the foreign keys of satellites (nullable)
    and payloads (mandatory), the many-to-many launcher links, and the
    declared `max_length` bounds.  Deletion follows the `on_delete` rules:
    `SET_NULL` for a satellite's owner, `CASCADE` for a payload's satellite,
    and removal of the link rows for launchers. */
module Models {
  import opened Wrappers

  /** A primary key; each insert takes a key above every existing one. */
  type Id = nat

  /** A `DateTimeField` value, carried as uninterpreted text. */
  type Timestamp = string

  /** A `DateField` value as a (year, month, day) triple; the model neither
      validates nor compares dates. */
  datatype Date = Date(year: int, month: int, day: int)

  const MaxNameLength := 100
  const MaxCountryLength := 100
  const MaxTleLineLength := 69
  const MaxProviderLength := 120
  const MaxPayloadTypeLength := 100
  const MaxLauncherTypeLength := 100

  datatype Owner = Owner(name: string, country: string)

  datatype Satellite = Satellite(
    name: string,
    satId: Option<int>,
    tleDate: Option<Timestamp>,
    line1: Option<string>,
    line2: Option<string>,
    owner: Option<Id>)

  /** `description` is a `TextField` without `null=True`: the column cannot
      hold NULL, so the row stores a plain string. */
  datatype Payload = Payload(provider: string, satellite: Id, kind: string, description: string)

  datatype Launcher = Launcher(satellites: set<Id>, launcherType: string, launchDate: Date)

  datatype Store = Store(
    owners: map<Id, Owner>,
    satellites: map<Id, Satellite>,
    payloads: map<Id, Payload>,
    launchers: map<Id, Launcher>,
    nextOwner: Id,
    nextSatellite: Id,
    nextPayload: Id,
    nextLauncher: Id)

  /** The constraint a write violated. */
  datatype Constraint = UniqueSatId | SatelliteOwnerKey | PayloadSatelliteKey | PayloadDescriptionNotNull

  /** The exceptions the modelled code lets escape. */
  datatype Error =
    | KeyError(key: string)           // a feed record lacks a field
    | DoesNotExist                    // `objects.get` matched no row
    | MultipleObjectsReturned         // `objects.get` matched several rows
    | IntegrityError(constraint: Constraint)

  /** The empty database of a fresh installation. */
  function Empty(): (r: Store) {
    Store(map[], map[], map[], map[], 1, 1, 1, 1)
  }

  /** Every key of every table lies below that table's counter, so the
      counter is always a fresh key. */
  ghost predicate KeysBelowCounters(st: Store) {
    && (forall id :: id in st.owners ==> id < st.nextOwner)
    && (forall id :: id in st.satellites ==> id < st.nextSatellite)
    && (forall id :: id in st.payloads ==> id < st.nextPayload)
    && (forall id :: id in st.launchers ==> id < st.nextLauncher)
  }

  /** `sat_id = IntegerField(null=True, unique=True)`: two satellites never
      share a non-null `sat_id`; any number of them may have none. */
  ghost predicate UniqueSatIds(sats: map<Id, Satellite>) {
    forall a, b :: a in sats && b in sats && sats[a].satId.Some? && sats[a].satId == sats[b].satId ==> a == b
  }

  /** The relational integrity the database enforces. */
  ghost predicate Consistent(st: Store) {
    && KeysBelowCounters(st)
    && UniqueSatIds(st.satellites)
    && (forall id :: id in st.satellites && st.satellites[id].owner.Some? ==> st.satellites[id].owner.value in st.owners)
    && (forall id :: id in st.payloads ==> st.payloads[id].satellite in st.satellites)
    && (forall id :: id in st.launchers ==> st.launchers[id].satellites <= st.satellites.Keys)
  }

  ghost predicate OptionalLineWithin(line: Option<string>) {
    line.Some? ==> |line.value| <= MaxTleLineLength
  }

  /** A satellite row respects the declared lengths of its columns. */
  ghost predicate RowWithinBounds(row: Satellite) {
    |row.name| <= MaxNameLength && OptionalLineWithin(row.line1) && OptionalLineWithin(row.line2)
  }

  /** The declared `max_length` of every bounded character column. */
  ghost predicate WithinBounds(st: Store) {
    && (forall id :: id in st.owners ==> |st.owners[id].name| <= MaxNameLength && |st.owners[id].country| <= MaxCountryLength)
    && (forall id :: id in st.satellites ==> RowWithinBounds(st.satellites[id]))
    && (forall id :: id in st.payloads ==> |st.payloads[id].provider| <= MaxProviderLength && |st.payloads[id].kind| <= MaxPayloadTypeLength)
    && (forall id :: id in st.launchers ==> |st.launchers[id].launcherType| <= MaxLauncherTypeLength)
  }

  /** Every satellite of `st` is still present, unchanged, in `st'`. */
  ghost predicate SatellitesKept(st: Store, st': Store) {
    forall id :: id in st.satellites ==> id in st'.satellites && st'.satellites[id] == st.satellites[id]
  }

  /** Deleting an owner keeps its satellites and clears their `owner`
      (`on_delete=SET_NULL`).  Deleting an absent key deletes nothing. */
  function DeleteOwner(st: Store, id: Id): (r: Store)
    ensures id !in r.owners
    ensures forall o :: o in st.owners && o != id ==> o in r.owners && r.owners[o] == st.owners[o]
    ensures r.owners.Keys <= st.owners.Keys
    ensures r.satellites.Keys == st.satellites.Keys
    ensures forall s :: s in st.satellites && st.satellites[s].owner == Some(id) ==>
              r.satellites[s] == st.satellites[s].(owner := None)
    ensures forall s :: s in st.satellites && st.satellites[s].owner != Some(id) ==>
              r.satellites[s] == st.satellites[s]
    ensures r.payloads == st.payloads && r.launchers == st.launchers
    ensures Consistent(st) ==> Consistent(r)
    ensures WithinBounds(st) ==> WithinBounds(r)
  {
    var sats := map s | s in st.satellites ::
      if st.satellites[s].owner == Some(id) then st.satellites[s].(owner := None) else st.satellites[s];
    st.(owners := st.owners - {id}, satellites := sats)
  }

  /** Deleting a satellite deletes every payload that references it
      (`on_delete=CASCADE`) and the launcher links to it; owners stay. */
  function DeleteSatellite(st: Store, id: Id): (r: Store)
    ensures r.satellites.Keys == st.satellites.Keys - {id}
    ensures forall s :: s in r.satellites ==> r.satellites[s] == st.satellites[s]
    ensures forall p :: p in r.payloads <==> p in st.payloads && st.payloads[p].satellite != id
    ensures forall p :: p in r.payloads ==> r.payloads[p] == st.payloads[p]
    ensures r.launchers.Keys == st.launchers.Keys
    ensures forall l :: l in r.launchers ==>
              r.launchers[l] == st.launchers[l].(satellites := st.launchers[l].satellites - {id})
    ensures r.owners == st.owners
    ensures Consistent(st) ==> Consistent(r)
    ensures WithinBounds(st) ==> WithinBounds(r)
  {
    var pays := map p | p in st.payloads && st.payloads[p].satellite != id :: st.payloads[p];
    var lnch := map l | l in st.launchers ::
      st.launchers[l].(satellites := st.launchers[l].satellites - {id});
    st.(satellites := st.satellites - {id}, payloads := pays, launchers := lnch)
  }

  /** A payload is referenced by nothing; deleting it touches no other table. */
  function DeletePayload(st: Store, id: Id): (r: Store)
    ensures id !in r.payloads
    ensures forall p :: p in st.payloads && p != id ==> p in r.payloads && r.payloads[p] == st.payloads[p]
    ensures r.payloads.Keys <= st.payloads.Keys
    ensures r.owners == st.owners && r.satellites == st.satellites && r.launchers == st.launchers
    ensures Consistent(st) ==> Consistent(r)
    ensures WithinBounds(st) ==> WithinBounds(r)
  {
    st.(payloads := st.payloads - {id})
  }

  /** Deleting a launcher drops its links; the linked satellites stay. */
  function DeleteLauncher(st: Store, id: Id): (r: Store)
    ensures id !in r.launchers
    ensures forall l :: l in st.launchers && l != id ==> l in r.launchers && r.launchers[l] == st.launchers[l]
    ensures r.launchers.Keys <= st.launchers.Keys
    ensures r.owners == st.owners && r.satellites == st.satellites && r.payloads == st.payloads
    ensures Consistent(st) ==> Consistent(r)
    ensures WithinBounds(st) ==> WithinBounds(r)
  {
    st.(launchers := st.launchers - {id})
  }

  /** The empty store satisfies every invariant. */
  lemma EmptyIsConsistent()
    ensures Consistent(Empty()) && WithinBounds(Empty())
  {
  }
}

=== FILE: orm.dfy ===
/** The part of the Django ORM the core relies on, over the in-memory store:
    filtering a table, `objects.get`, `objects.all`, inserting a satellite
    (with the database's constraint checks) and `objects.get_or_create`.

    A table is scanned in primary-key order, which is the order in which the
    rows were created. */
module Orm {
  import opened Wrappers
  import opened Models

  /** The keys in `[lo, hi)` of the rows of `t` that satisfy `p`, ascending. */
  function Select<T>(t: map<Id, T>, p: T -> bool, lo: nat, hi: nat): (r: seq<Id>)
    decreases hi - lo
    ensures forall i :: 0 <= i < |r| ==> r[i] in t && p(t[r[i]]) && lo <= r[i] < hi
    ensures forall id :: id in t && lo <= id < hi && p(t[id]) ==> id in r
    ensures forall i, j :: 0 <= i < j < |r| ==> r[i] < r[j]
  {
    if lo >= hi then []
    else if lo in t && p(t[lo]) then [lo] + Select(t, p, lo + 1, hi)
    else Select(t, p, lo + 1, hi)
  }

  /** `Model.objects.get(<lookup>)`: the one matching row, `DoesNotExist` when
      none matches, `MultipleObjectsReturned` when several do. */
  function Get<T>(t: map<Id, T>, p: T -> bool, hi: nat): (r: Result<Id, Error>)
    requires forall id :: id in t ==> id < hi
    ensures r.Success? <==> (exists id :: id in t && p(t[id])) && (forall a, b :: a in t && b in t && p(t[a]) && p(t[b]) ==> a == b)
    ensures r.Success? ==> r.value in t && p(t[r.value])
    ensures r == Failure(DoesNotExist) <==> forall id :: id in t ==> !p(t[id])
    ensures r.Failure? ==> r.error == DoesNotExist || r.error == MultipleObjectsReturned
  {
    var m := Select(t, p, 0, hi);
    if |m| == 0 then Failure(DoesNotExist)
    else if |m| > 1 then
      assert m[0] != m[1];
      Failure(MultipleObjectsReturned)
    else Success(m[0])
  }

  /** `rows` lists every row of `t` with its key, once each, in key order,
      and nothing else. */
  ghost predicate ListsExactly<T>(t: map<Id, T>, rows: seq<(Id, T)>) {
    && (forall i :: 0 <= i < |rows| ==> rows[i].0 in t && rows[i].1 == t[rows[i].0])
    && (forall id :: id in t ==> exists i :: 0 <= i < |rows| && rows[i].0 == id)
    && (forall i, j :: 0 <= i < j < |rows| ==> rows[i].0 < rows[j].0)
  }

  /** The keys a strictly ascending listing mentions are as many as its rows. */
  lemma {:induction false} AscendingKeysCount<T>(rows: seq<(Id, T)>)
    requires forall i, j :: 0 <= i < j < |rows| ==> rows[i].0 < rows[j].0
    ensures |set i | 0 <= i < |rows| :: rows[i].0| == |rows|
  {
    if |rows| > 0 {
      var init := rows[..|rows| - 1];
      AscendingKeysCount(init);
      var before := set i | 0 <= i < |init| :: init[i].0;
      var after := set i | 0 <= i < |rows| :: rows[i].0;
      var last := rows[|rows| - 1].0;
      assert after == before + {last} by {
        forall k | k in after ensures k in before + {last} {
          var i :| 0 <= i < |rows| && rows[i].0 == k;
          if i < |init| { assert init[i].0 == k; }
        }
        forall k | k in before ensures k in after {
          var i :| 0 <= i < |init| && init[i].0 == k;
          assert rows[i].0 == k;
        }
      }
      assert last !in before by {
        forall i | 0 <= i < |init| ensures init[i].0 != last {
          assert init[i] == rows[i];
        }
      }
    }
  }

  /** A listing of a table has exactly one row per row of the table. */
  lemma ListingSize<T>(t: map<Id, T>, rows: seq<(Id, T)>)
    requires ListsExactly(t, rows)
    ensures |rows| == |t|
  {
    AscendingKeysCount(rows);
    var keys := set i | 0 <= i < |rows| :: rows[i].0;
    assert keys == t.Keys by {
      forall id | id in t ensures id in keys {
        var i :| 0 <= i < |rows| && rows[i].0 == id;
      }
    }
  }

  /** After a row is added under a fresh key, a listing of the table has
      that row and one row more than a listing of the table before. */
  lemma ListingAfterInsert<T>(t: map<Id, T>, k: Id, v: T, before: seq<(Id, T)>, after: seq<(Id, T)>)
    requires k !in t
    requires ListsExactly(t, before) && ListsExactly(t[k := v], after)
    ensures exists i :: 0 <= i < |after| && after[i] == (k, v)
    ensures |after| == |before| + 1
  {
    ListingSize(t, before);
    ListingSize(t[k := v], after);
    assert k in t[k := v];
    var i :| 0 <= i < |after| && after[i].0 == k;
    assert after[i] == (k, v);
  }

  /** `Model.objects.all()`: every row with its key, in key order. */
  function All<T>(t: map<Id, T>, hi: nat): (r: seq<(Id, T)>)
    requires forall id :: id in t ==> id < hi
    ensures ListsExactly(t, r)
  {
    var ids := Select(t, (_: T) => true, 0, hi);
    var r := seq(|ids|, i requires 0 <= i < |ids| => (ids[i], t[ids[i]]));
    assert forall i :: 0 <= i < |ids| ==> r[i].0 == ids[i];
    assert forall id :: id in t ==> id in ids;
    r
  }

  /** Some other satellite already holds the non-null `sat_id` of `row`. */
  predicate SatIdTaken(sats: map<Id, Satellite>, satId: Option<int>) {
    satId.Some? && exists id | id in sats :: sats[id].satId == satId
  }

  /** `INSERT` of a new satellite row under the next key; the database
      rejects a duplicate non-null `sat_id` and a dangling owner. */
  function InsertSatellite(st: Store, row: Satellite): (r: Result<(Store, Id), Error>)
    requires Consistent(st)
    ensures SatIdTaken(st.satellites, row.satId) ==> r == Failure(IntegrityError(UniqueSatId))
    ensures !SatIdTaken(st.satellites, row.satId) && row.owner.Some? && row.owner.value !in st.owners ==>
              r == Failure(IntegrityError(SatelliteOwnerKey))
    ensures r.Success? <==> !SatIdTaken(st.satellites, row.satId) && (row.owner.Some? ==> row.owner.value in st.owners)
    ensures r.Success? ==>
              var (st', id) := r.value;
              && id !in st.satellites
              && st'.satellites == st.satellites[id := row]
              && st' == st.(satellites := st'.satellites, nextSatellite := st'.nextSatellite)
              && Consistent(st')
    ensures r.Success? && WithinBounds(st) && RowWithinBounds(row) ==> WithinBounds(r.value.0)
  {
    if SatIdTaken(st.satellites, row.satId) then Failure(IntegrityError(UniqueSatId))
    else if row.owner.Some? && row.owner.value !in st.owners then Failure(IntegrityError(SatelliteOwnerKey))
    else
      var id := st.nextSatellite;
      var st' := st.(satellites := st.satellites[id := row], nextSatellite := id + 1);
      assert UniqueSatIds(st'.satellites);
      Success((st', id))
  }

  /** What `get_or_create` hands back: the store after the call, the row's
      key, and whether the row was created. */
  datatype Fetched = Fetched(store: Store, id: Id, created: bool)

  /** `Satellite.objects.get_or_create(<lookup>)`: the single matching row if
      there is one; otherwise `row` is inserted.  Several matches raise
      `MultipleObjectsReturned`; a failed insert raises its `IntegrityError`
      (the retried lookup after it finds nothing either). */
  function GetOrCreateSatellite(st: Store, lookup: Satellite -> bool, row: Satellite): (r: Result<Fetched, Error>)
    requires Consistent(st)
    ensures r.Success? && !r.value.created ==>
              && r.value.store == st
              && r.value.id in st.satellites && lookup(st.satellites[r.value.id])
              && (forall id :: id in st.satellites && lookup(st.satellites[id]) ==> id == r.value.id)
    ensures r.Success? && r.value.created ==>
              && (forall id :: id in st.satellites ==> !lookup(st.satellites[id]))
              && r.value.id !in st.satellites
              && r.value.store.satellites == st.satellites[r.value.id := row]
              && r.value.store == st.(satellites := r.value.store.satellites, nextSatellite := r.value.store.nextSatellite)
    ensures (exists a, b :: a in st.satellites && b in st.satellites && a != b && lookup(st.satellites[a]) && lookup(st.satellites[b]))
            ==> r == Failure(MultipleObjectsReturned)
    ensures (exists id :: id in st.satellites && lookup(st.satellites[id])) && r.Failure? ==> r == Failure(MultipleObjectsReturned)
    ensures (forall id :: id in st.satellites ==> !lookup(st.satellites[id])) ==>
              (r.Success? <==> InsertSatellite(st, row).Success?)
              && (r.Failure? ==> r.error == InsertSatellite(st, row).error)
    ensures r.Success? ==> Consistent(r.value.store) && SatellitesKept(st, r.value.store)
    ensures r.Success? && WithinBounds(st) && RowWithinBounds(row) ==> WithinBounds(r.value.store)
  {
    var found := Get(st.satellites, lookup, st.nextSatellite);
    if found.Success? then Success(Fetched(st, found.value, false))
    else if found.error == MultipleObjectsReturned then Failure(MultipleObjectsReturned)
    else
      match InsertSatellite(st, row)
      case Success((st', id)) => Success(Fetched(st', id, true))
      case Failure(e) => Failure(e)
  }
}

=== FILE: satapp_updater.dfy ===
/** One cycle of the updater thread started from the Django app
    (`TLEUpdater.update_satellites` of `satapp/utils/tle_updater.py`), after
    the feed has been fetched and parsed.  This earlier variant iterates the
    fetched value itself, keys `get_or_create` on `name` alone, ignores every
    other field of the record, and broadcasts the satellite's key on channel
    `satellite_updated` for every record, created or not (as the loop body
    would if its broadcast call were accepted; see `Broadcast`).  Nothing catches
    an exception: the first one ends the cycle and, with it, the thread's
    `while True` loop, so no later cycle runs; what was applied before it
    stays. */
module SatappUpdater {
  import opened Wrappers
  import opened Models
  import opened Orm
  import opened Feed

  const Channel := "satellite_updated"

  /** `SatelliteSubscription.broadcast(channel=..., payload={"satellite_updated": id})`,
      as it would be sent if the call named its group with the keyword the
      inherited `broadcast` accepts (it takes `group`, not `channel`, and as
      written raises instead). */
  datatype Broadcast = Broadcast(channel: string, satelliteUpdated: Id)

  /** The `get_or_create` lookup for name `n`. */
  function NameLookup(n: string): (r: Satellite -> bool) {
    (s: Satellite) => s.name == n
  }

  /** The row `get_or_create(name=n)` inserts: `sat_id` and the TLE columns
      stay NULL and there is no owner. */
  function NewRow(n: string): (r: Satellite) {
    Satellite(n, None, None, None, None, None)
  }

  /** Satellite `id` is stored under name `n`. */
  ghost predicate HasName(st: Store, n: string, id: Id) {
    id in st.satellites && st.satellites[id].name == n
  }

  /** Exactly one stored satellite is called `n`. */
  ghost predicate UniquelyNamed(st: Store, n: string) {
    && (exists id :: HasName(st, n, id))
    && (forall a, b :: HasName(st, n, a) && HasName(st, n, b) ==> a == b)
  }

  /** The store and the broadcasts after one record. */
  datatype Applied = Applied(store: Store, events: seq<Broadcast>)

  /** The body of the `for data in tle_data` loop; the lemmas below state
      what it does in each case. */
  function UpdateSatellite(st: Store, rec: Record): (r: Result<Applied, Error>)
    requires Consistent(st)
    ensures r.Success? ==> Consistent(r.value.store) && SatellitesKept(st, r.value.store)
  {
    if rec.name.None? then Failure(KeyError("name"))
    else
      var got := GetOrCreateSatellite(st, NameLookup(rec.name.value), NewRow(rec.name.value));
      if got.Failure? then Failure(got.error)
      else Success(Applied(got.value.store, [Broadcast(Channel, got.value.id)]))
  }

  /** An unseen name creates one row under a fresh key and broadcasts it. */
  lemma UpdateSatelliteUnseen(st: Store, rec: Record)
    requires Consistent(st)
    requires rec.name.Some? && forall id :: !HasName(st, rec.name.value, id)
    ensures var r := UpdateSatellite(st, rec);
            && r.Success?
            && |r.value.events| == 1
            && var id := r.value.events[0].satelliteUpdated;
               && id !in st.satellites
               && r.value.store.satellites == st.satellites[id := NewRow(rec.name.value)]
               && r.value.store == st.(satellites := r.value.store.satellites, nextSatellite := r.value.store.nextSatellite)
               && r.value.events == [Broadcast(Channel, id)]
  {
    var n := rec.name.value;
    forall id | id in st.satellites
      ensures !NameLookup(n)(st.satellites[id])
    {
      assert !HasName(st, n, id);
    }
  }

  /** A name held by exactly one satellite leaves the store alone and
      broadcasts that satellite. */
  lemma UpdateSatelliteFound(st: Store, rec: Record)
    requires Consistent(st)
    requires rec.name.Some? && UniquelyNamed(st, rec.name.value)
    ensures var r := UpdateSatellite(st, rec);
            && r.Success?
            && r.value.store == st
            && |r.value.events| == 1
            && r.value.events[0].channel == Channel
            && HasName(st, rec.name.value, r.value.events[0].satelliteUpdated)
  {
    var n := rec.name.value;
    var id :| HasName(st, n, id);
    assert NameLookup(n)(st.satellites[id]);
    forall a, b | a in st.satellites && b in st.satellites && NameLookup(n)(st.satellites[a]) && NameLookup(n)(st.satellites[b])
      ensures a == b
    {
      assert HasName(st, n, a) && HasName(st, n, b);
    }
  }

  /** A name held by several satellites raises `MultipleObjectsReturned`. */
  lemma UpdateSatelliteAmbiguous(st: Store, rec: Record, a: Id, b: Id)
    requires Consistent(st)
    requires rec.name.Some? && a != b && HasName(st, rec.name.value, a) && HasName(st, rec.name.value, b)
    ensures UpdateSatellite(st, rec) == Failure(MultipleObjectsReturned)
  {
    assert NameLookup(rec.name.value)(st.satellites[a]) && NameLookup(rec.name.value)(st.satellites[b]);
  }

  /** A missing `name` raises `KeyError`. */
  lemma UpdateSatelliteNameless(st: Store, rec: Record)
    requires Consistent(st)
    requires rec.name.None?
    ensures UpdateSatellite(st, rec) == Failure(KeyError("name"))
  {
  }

  /** What a successful step did: its record has a name, which is now held by
      exactly one satellite; that satellite was either there already (and
      nothing changed) or is the one new row; it is the one broadcast. */
  lemma UpdateSatelliteSucceeded(st: Store, rec: Record)
    requires Consistent(st)
    requires UpdateSatellite(st, rec).Success?
    ensures var a := UpdateSatellite(st, rec).value;
            && rec.name.Some?
            && |a.events| == 1
            && a.events[0].channel == Channel
            && HasName(a.store, rec.name.value, a.events[0].satelliteUpdated)
            && UniquelyNamed(a.store, rec.name.value)
            && ((a.store == st && UniquelyNamed(st, rec.name.value))
                || ((forall id :: !HasName(st, rec.name.value, id))
                    && a.events[0].satelliteUpdated !in st.satellites
                    && a.store.satellites == st.satellites[a.events[0].satelliteUpdated := NewRow(rec.name.value)]))
  {
    var n := rec.name.value;
    if forall id :: !HasName(st, n, id) {
      UpdateSatelliteUnseen(st, rec);
      var a := UpdateSatellite(st, rec).value;
      var id := a.events[0].satelliteUpdated;
      assert HasName(a.store, n, id);
      forall x | HasName(a.store, n, x)
        ensures x == id
      {
        assert !HasName(st, n, x);
      }
    } else if exists a, b :: a != b && HasName(st, n, a) && HasName(st, n, b) {
      var a, b :| a != b && HasName(st, n, a) && HasName(st, n, b);
      UpdateSatelliteAmbiguous(st, rec, a, b);
      assert false;
    } else {
      UpdateSatelliteFound(st, rec);
    }
  }

  /** The outcome of a cycle: the final store, every broadcast sent, and the
      exception that stopped the loop, if any. */
  datatype Outcome = Outcome(store: Store, events: seq<Broadcast>, failure: Option<Error>)

  /** The `for data in tle_data` loop of `update_satellites`, over the
      fetched list itself. */
  function Cycle(st: Store, recs: seq<Record>): (r: Outcome)
    requires Consistent(st)
    decreases |recs|
    ensures Consistent(r.store) && SatellitesKept(st, r.store)
  {
    if recs == [] then Outcome(st, [], None)
    else
      var step := UpdateSatellite(st, recs[0]);
      if step.Failure? then Outcome(st, [], Some(step.error))
      else
        var rest := Cycle(step.value.store, recs[1..]);
        Outcome(rest.store, step.value.events + rest.events, rest.failure)
  }

  /** `evs` holds one broadcast on `satellite_updated` per record, in order,
      each naming a satellite of `st` that bears that record's name. */
  ghost predicate Reports(st: Store, recs: seq<Record>, evs: seq<Broadcast>) {
    && |evs| == |recs|
    && forall i :: 0 <= i < |recs| ==>
         && recs[i].name.Some?
         && evs[i].channel == Channel
         && HasName(st, recs[i].name.value, evs[i].satelliteUpdated)
  }

  /** A successful step leaves every uniquely named satellite uniquely named,
      and makes its own record's name unique. */
  lemma StepKeepsNamesUnique(st: Store, rec: Record, n: string)
    requires Consistent(st)
    requires UpdateSatellite(st, rec).Success?
    requires UniquelyNamed(st, n)
    ensures UniquelyNamed(UpdateSatellite(st, rec).value.store, n)
  {
    UpdateSatelliteSucceeded(st, rec);
    var st' := UpdateSatellite(st, rec).value.store;
    var id :| HasName(st, n, id);
    assert HasName(st', n, id);
    if st' != st {
      assert rec.name.value != n by {
        assert HasName(st, n, id);
      }
      forall a, b | HasName(st', n, a) && HasName(st', n, b)
        ensures a == b
      {
        assert HasName(st, n, a) && HasName(st, n, b);
      }
    }
  }

  /** `Reports`, and every record's name is held by exactly one satellite. */
  ghost predicate ReportsUniquely(st: Store, recs: seq<Record>, evs: seq<Broadcast>) {
    && Reports(st, recs, evs)
    && forall i :: 0 <= i < |recs| ==> recs[i].name.Some? && UniquelyNamed(st, recs[i].name.value)
  }

  /** Prepending one reported record keeps `ReportsUniquely`. */
  lemma ReportsUniquelyCons(st: Store, rec: Record, e: Broadcast, recs: seq<Record>, evs: seq<Broadcast>)
    requires rec.name.Some? && e.channel == Channel
    requires HasName(st, rec.name.value, e.satelliteUpdated) && UniquelyNamed(st, rec.name.value)
    requires ReportsUniquely(st, recs, evs)
    ensures ReportsUniquely(st, [rec] + recs, [e] + evs)
  {
    var all, alle := [rec] + recs, [e] + evs;
    forall i | 1 <= i < |all|
      ensures all[i] == recs[i - 1] && alle[i] == evs[i - 1]
    {
    }
  }

  /** An uncaught exception stops the loop part-way: some record `k` failed
      against the store left by the records before it, those records stay
      applied with their broadcasts, and no later record is looked at. */
  lemma {:induction false} CycleStopsAtFailure(st: Store, recs: seq<Record>) returns (k: nat)
    requires Consistent(st)
    requires Cycle(st, recs).failure.Some?
    ensures k < |recs|
    ensures var before := Cycle(st, recs[..k]);
            && before.failure.None?
            && before.store == Cycle(st, recs).store
            && before.events == Cycle(st, recs).events
            && UpdateSatellite(before.store, recs[k]) == Failure(Cycle(st, recs).failure.value)
    decreases |recs|
  {
    var step := UpdateSatellite(st, recs[0]);
    if step.Failure? {
      k := 0;
      assert recs[..0] == [];
    } else {
      var st' := step.value.store;
      var k' := CycleStopsAtFailure(st', recs[1..]);
      k := k' + 1;
      var pre := recs[..k];
      assert pre[0] == recs[0];
      assert pre[1..] == recs[1..][..k'];
      assert recs[k] == recs[1..][k'];
      assert step.value.events + Cycle(st', pre[1..]).events == step.value.events + Cycle(st', recs[1..]).events;
    }
  }

  /** After a cycle that did not fail, every record's name belongs to exactly
      one satellite, and the cycle broadcast exactly that satellite for each
      record, in order. */
  lemma {:induction false} CycleReportsEveryRecord(st: Store, recs: seq<Record>)
    requires Consistent(st)
    requires Cycle(st, recs).failure.None?
    ensures ReportsUniquely(Cycle(st, recs).store, recs, Cycle(st, recs).events)
    decreases |recs|
  {
    if recs != [] {
      var step := UpdateSatellite(st, recs[0]);
      var n := recs[0].name.value;
      var id := StepReports(st, recs[0]);
      var st' := step.value.store;
      var r := Cycle(st', recs[1..]);
      CycleReportsEveryRecord(st', recs[1..]);
      CycleKeepsNamesUnique(st', recs[1..], n);
      assert HasName(r.store, n, id);
      ReportsUniquelyCons(r.store, recs[0], Broadcast(Channel, id), recs[1..], r.events);
      assert [recs[0]] + recs[1..] == recs;
    }
  }

  /** A successful step broadcasts the one satellite that now bears its
      record's name. */
  lemma StepReports(st: Store, rec: Record) returns (id: Id)
    requires Consistent(st)
    requires UpdateSatellite(st, rec).Success?
    ensures rec.name.Some?
    ensures UpdateSatellite(st, rec).value.events == [Broadcast(Channel, id)]
    ensures HasName(UpdateSatellite(st, rec).value.store, rec.name.value, id)
    ensures UniquelyNamed(UpdateSatellite(st, rec).value.store, rec.name.value)
  {
    UpdateSatelliteSucceeded(st, rec);
    id := UpdateSatellite(st, rec).value.events[0].satelliteUpdated;
  }

  /** A cycle that does not fail keeps a uniquely named satellite uniquely
      named. */
  lemma {:induction false} CycleKeepsNamesUnique(st: Store, recs: seq<Record>, n: string)
    requires Consistent(st)
    requires Cycle(st, recs).failure.None?
    requires UniquelyNamed(st, n)
    ensures UniquelyNamed(Cycle(st, recs).store, n)
    decreases |recs|
  {
    if recs != [] {
      StepKeepsNamesUnique(st, recs[0], n);
      CycleKeepsNamesUnique(UpdateSatellite(st, recs[0]).value.store, recs[1..], n);
    }
  }

  /** A cycle over records whose names each belong to exactly one satellite
      changes nothing, and broadcasts those satellites in order. */
  lemma {:induction false} NamedCycleIsIdle(st: Store, recs: seq<Record>)
    requires Consistent(st)
    requires forall i :: 0 <= i < |recs| ==> recs[i].name.Some? && UniquelyNamed(st, recs[i].name.value)
    ensures Cycle(st, recs).store == st && Cycle(st, recs).failure.None?
    ensures ReportsUniquely(st, recs, Cycle(st, recs).events)
    decreases |recs|
  {
    if recs != [] {
      var id := FoundStep(st, recs[0]);
      assert forall i :: 0 <= i < |recs[1..]| ==> recs[1..][i] == recs[i + 1];
      NamedCycleIsIdle(st, recs[1..]);
      NamedStep(st, recs, id);
    }
  }

  /** The inductive step of `NamedCycleIsIdle`. */
  lemma NamedStep(st: Store, recs: seq<Record>, id: Id)
    requires Consistent(st) && recs != []
    requires recs[0].name.Some? && UniquelyNamed(st, recs[0].name.value) && HasName(st, recs[0].name.value, id)
    requires UpdateSatellite(st, recs[0]) == Success(Applied(st, [Broadcast(Channel, id)]))
    requires Cycle(st, recs[1..]).store == st && Cycle(st, recs[1..]).failure.None?
    requires ReportsUniquely(st, recs[1..], Cycle(st, recs[1..]).events)
    ensures Cycle(st, recs).store == st && Cycle(st, recs).failure.None?
    ensures ReportsUniquely(st, recs, Cycle(st, recs).events)
  {
    ReportsUniquelyCons(st, recs[0], Broadcast(Channel, id), recs[1..], Cycle(st, recs[1..]).events);
    assert [recs[0]] + recs[1..] == recs;
  }

  /** `UpdateSatelliteFound`, naming the satellite broadcast. */
  lemma FoundStep(st: Store, rec: Record) returns (id: Id)
    requires Consistent(st)
    requires rec.name.Some? && UniquelyNamed(st, rec.name.value)
    ensures UpdateSatellite(st, rec) == Success(Applied(st, [Broadcast(Channel, id)]))
    ensures HasName(st, rec.name.value, id)
  {
    UpdateSatelliteFound(st, rec);
    var a := UpdateSatellite(st, rec).value;
    id := a.events[0].satelliteUpdated;
    assert a.events == [Broadcast(Channel, id)];
  }

  /** Re-running a cycle that succeeded leaves the store unchanged and sends
      the very same broadcasts again: one per record, no fewer. */
  lemma CycleRerun(st: Store, recs: seq<Record>)
    requires Consistent(st)
    requires Cycle(st, recs).failure.None?
    ensures var first := Cycle(st, recs);
            Cycle(first.store, recs) == Outcome(first.store, first.events, None)
  {
    var first := Cycle(st, recs);
    CycleReportsEveryRecord(st, recs);
    NamedCycleIsIdle(first.store, recs);
    ReportsDetermined(first.store, recs, first.events, Cycle(first.store, recs).events);
  }

  /** Over uniquely named records the broadcasts are determined by the
      store. */
  lemma ReportsDetermined(st: Store, recs: seq<Record>, evs: seq<Broadcast>, evs': seq<Broadcast>)
    requires ReportsUniquely(st, recs, evs) && ReportsUniquely(st, recs, evs')
    ensures evs == evs'
  {
    forall i | 0 <= i < |recs|
      ensures evs[i] == evs'[i]
    {
      var n := recs[i].name.value;
      assert HasName(st, n, evs[i].satelliteUpdated) && HasName(st, n, evs'[i].satelliteUpdated);
    }
  }

  /** The names of the records (records without one contribute nothing). */
  function RecordNames(recs: seq<Record>): (r: set<string>) {
    set i | 0 <= i < |recs| && recs[i].name.Some? :: recs[i].name.value
  }

  /** The names of the stored satellites. */
  function StoredNames(st: Store): (r: set<string>) {
    set id | id in st.satellites :: st.satellites[id].name
  }

  /** Inserting one row called `n` under a fresh key adds one row and the
      name `n`. */
  lemma StoredNamesAfterInsert(st: Store, st': Store, id: Id, n: string)
    requires id !in st.satellites
    requires st'.satellites == st.satellites[id := NewRow(n)]
    ensures StoredNames(st') == StoredNames(st) + {n}
    ensures |st'.satellites| == |st.satellites| + 1
  {
    forall m | m in StoredNames(st')
      ensures m in StoredNames(st) + {n}
    {
      var k :| k in st'.satellites && st'.satellites[k].name == m;
      if k != id {
        assert st.satellites[k].name == m;
      }
    }
    assert st'.satellites[id].name == n;
    forall m | m in StoredNames(st)
      ensures m in StoredNames(st')
    {
      var k :| k in st.satellites && st.satellites[k].name == m;
      assert st'.satellites[k] == st.satellites[k];
    }
  }

  /** The names of `[rec] + rest` are those of `rest` plus the record's. */
  lemma RecordNamesCons(recs: seq<Record>)
    requires recs != [] && recs[0].name.Some?
    ensures RecordNames(recs) == {recs[0].name.value} + RecordNames(recs[1..])
  {
    forall m | m in RecordNames(recs[1..])
      ensures m in RecordNames(recs)
    {
      var j :| 0 <= j < |recs[1..]| && recs[1..][j].name.Some? && recs[1..][j].name.value == m;
      assert recs[j + 1] == recs[1..][j];
    }
    forall m | m in RecordNames(recs)
      ensures m in {recs[0].name.value} + RecordNames(recs[1..])
    {
      var j :| 0 <= j < |recs| && recs[j].name.Some? && recs[j].name.value == m;
      if j > 0 {
        assert recs[j] == recs[1..][j - 1];
      }
    }
  }

  /** Counting arithmetic for one more name `n` on top of `rest`: `before`,
      `middle` and `after` are the row counts before the step, after it and
      after the rest of the cycle. */
  lemma UnseenStep(seen: set<string>, n: string, rest: set<string>, before: int, middle: int, after: int)
    requires n in seen ==> middle == before
    requires n !in seen ==> middle == before + 1
    requires after == middle + |rest - (seen + {n})|
    ensures after == before + |({n} + rest) - seen|
  {
    if n in seen {
      assert seen + {n} == seen;
      assert ({n} + rest) - seen == rest - seen;
    } else {
      assert ({n} + rest) - seen == {n} + (rest - (seen + {n}));
      assert n !in rest - (seen + {n});
    }
  }

  /** What one successful step does to the stored names and the row count. */
  lemma StepStoredNames(st: Store, rec: Record)
    requires Consistent(st)
    requires UpdateSatellite(st, rec).Success?
    ensures rec.name.Some?
    ensures var st' := UpdateSatellite(st, rec).value.store;
            && StoredNames(st') == StoredNames(st) + {rec.name.value}
            && (rec.name.value in StoredNames(st) ==> |st'.satellites| == |st.satellites|)
            && (rec.name.value !in StoredNames(st) ==> |st'.satellites| == |st.satellites| + 1)
  {
    var a := UpdateSatellite(st, rec).value;
    UpdateSatelliteSucceeded(st, rec);
    var n := rec.name.value;
    if a.store == st {
      var id :| HasName(st, n, id);
    } else {
      var id := a.events[0].satelliteUpdated;
      StoredNamesAfterInsert(st, a.store, id, n);
      assert n !in StoredNames(st) by {
        forall k | k in st.satellites
          ensures st.satellites[k].name != n
        {
          assert !HasName(st, n, k);
        }
      }
    }
  }

  /** Set algebra for one more name `n` ahead of the names `rest`. */
  lemma UnionRegroup(before: set<string>, middle: set<string>, after: set<string>, n: string,
                     rest: set<string>, all: set<string>)
    requires middle == before + {n} && after == middle + rest && all == {n} + rest
    ensures after == before + all
  {
  }

  /** A successful cycle stores exactly the names it had plus the records'. */
  lemma {:induction false} CycleStoredNames(st: Store, recs: seq<Record>)
    requires Consistent(st)
    requires Cycle(st, recs).failure.None?
    ensures StoredNames(Cycle(st, recs).store) == StoredNames(st) + RecordNames(recs)
    decreases |recs|
  {
    if recs == [] {
      assert RecordNames(recs) == {};
    } else {
      var st' := UpdateSatellite(st, recs[0]).value.store;
      StepStoredNames(st, recs[0]);
      CycleStoredNames(st', recs[1..]);
      RecordNamesCons(recs);
      assert Cycle(st, recs).store == Cycle(st', recs[1..]).store;
      UnionRegroup(StoredNames(st), StoredNames(st'), StoredNames(Cycle(st', recs[1..]).store),
                   recs[0].name.value, RecordNames(recs[1..]), RecordNames(recs));
    }
  }

  /** A successful cycle creates one row per distinct record name not yet
      stored, and no other. */
  lemma {:induction false} CycleCreatesUnseenNames(st: Store, recs: seq<Record>)
    requires Consistent(st)
    requires Cycle(st, recs).failure.None?
    ensures |Cycle(st, recs).store.satellites| == |st.satellites| + |RecordNames(recs) - StoredNames(st)|
    decreases |recs|
  {
    if recs == [] {
      assert RecordNames(recs) == {};
    } else {
      var st' := UpdateSatellite(st, recs[0]).value.store;
      var fin := Cycle(st', recs[1..]).store;
      StepStoredNames(st, recs[0]);
      CycleCreatesUnseenNames(st', recs[1..]);
      RecordNamesCons(recs);
      UnseenStep(StoredNames(st), recs[0].name.value, RecordNames(recs[1..]),
                 |st.satellites|, |st'.satellites|, |fin.satellites|);
    }
  }

  /** Two lists whose records carry the same names, record by record. */
  ghost predicate SameNames(a: seq<Record>, b: seq<Record>) {
    |a| == |b| && forall i :: 0 <= i < |a| ==> a[i].name == b[i].name
  }

  /** `satelliteId`, `date`, `line1` and `line2` are ignored: a cycle depends
      on the records' names only. */
  lemma {:induction false} CycleIgnoresAllButName(st: Store, a: seq<Record>, b: seq<Record>)
    requires Consistent(st)
    requires SameNames(a, b)
    ensures Cycle(st, a) == Cycle(st, b)
    decreases |a|
  {
    if a != [] {
      assert a[0].name == b[0].name;
      var step := UpdateSatellite(st, a[0]);
      assert step == UpdateSatellite(st, b[0]);
      if step.Success? {
        assert SameNames(a[1..], b[1..]) by {
          forall i | 0 <= i < |a[1..]|
            ensures a[1..][i].name == b[1..][i].name
          {
            assert a[1..][i] == a[i + 1] && b[1..][i] == b[i + 1];
          }
        }
        CycleIgnoresAllButName(step.value.store, a[1..], b[1..]);
      }
    }
  }

  /** One record keeps the store within the declared lengths when its name
      is within them (the new row's other columns are NULL). */
  lemma StepPreservesBounds(st: Store, rec: Record)
    requires Consistent(st) && WithinBounds(st)
    requires rec.name.Some? ==> |rec.name.value| <= MaxNameLength
    ensures UpdateSatellite(st, rec).Success? ==> WithinBounds(UpdateSatellite(st, rec).value.store)
  {
    if rec.name.Some? {
      assert RowWithinBounds(NewRow(rec.name.value));
    }
  }

  /** Rows created by a cycle respect the declared lengths whenever the names
      in the feed do. */
  lemma {:induction false} CyclePreservesBounds(st: Store, recs: seq<Record>)
    requires Consistent(st) && WithinBounds(st)
    requires forall i :: 0 <= i < |recs| && recs[i].name.Some? ==> |recs[i].name.value| <= MaxNameLength
    ensures WithinBounds(Cycle(st, recs).store)
    decreases |recs|
  {
    if recs != [] {
      var step := UpdateSatellite(st, recs[0]);
      if step.Success? {
        StepPreservesBounds(st, recs[0]);
        assert forall i :: 0 <= i < |recs[1..]| ==> recs[1..][i] == recs[i + 1];
        CyclePreservesBounds(step.value.store, recs[1..]);
      }
    }
  }
}

=== FILE: schema.dfy ===
/** The GraphQL resolvers of `satapp/schema.py` as operations on the store:
    the four `resolve_all_*` queries and the eight mutations.

    A mutation argument GraphQL declares optional is an `Option`; `None`
    stands for an omitted argument (Python's `None`).  `objects.get(pk=...)`
    on an unknown key raises `DoesNotExist`, which no resolver catches. */
module Schema {
  import opened Wrappers
  import opened Models
  import opened Orm

  /** What a mutation's body would hand back if its output field were
      assigned: the store after it and the key of the row it created or
      changed.  As declared, each output field is a bare annotation, so the
      `return` itself raises once the store effect has happened. */
  datatype Saved = Saved(store: Store, id: Id)

  // ---- Queries ----

  /** `Query.resolve_all_satellites`. */
  function AllSatellites(st: Store): (r: seq<(Id, Satellite)>)
    requires Consistent(st)
    ensures ListsExactly(st.satellites, r)
  {
    All(st.satellites, st.nextSatellite)
  }

  /** `Query.resolve_all_owners`. */
  function AllOwners(st: Store): (r: seq<(Id, Owner)>)
    requires Consistent(st)
    ensures ListsExactly(st.owners, r)
  {
    All(st.owners, st.nextOwner)
  }

  /** `Query.resolve_all_launchers`. */
  function AllLaunchers(st: Store): (r: seq<(Id, Launcher)>)
    requires Consistent(st)
    ensures ListsExactly(st.launchers, r)
  {
    All(st.launchers, st.nextLauncher)
  }

  /** `Query.resolve_all_payloads`. */
  function AllPayloads(st: Store): (r: seq<(Id, Payload)>)
    requires Consistent(st)
    ensures ListsExactly(st.payloads, r)
  {
    All(st.payloads, st.nextPayload)
  }

  // ---- Satellite mutations ----

  /** `CreateSatellite.mutate(name, owner_id)`: the owner must exist; the new
      satellite has that name and owner, and no `sat_id` or TLE data. */
  function CreateSatellite(st: Store, name: string, ownerId: Id): (r: Result<Saved, Error>)
    requires Consistent(st)
    ensures ownerId !in st.owners ==> r == Failure(DoesNotExist)
    ensures ownerId in st.owners ==> r.Success?
    ensures r.Success? ==>
              && r.value.id !in st.satellites
              && r.value.store.satellites == st.satellites[r.value.id := Satellite(name, None, None, None, None, Some(ownerId))]
              && r.value.store == st.(satellites := r.value.store.satellites, nextSatellite := r.value.store.nextSatellite)
    ensures r.Success? ==> Consistent(r.value.store)
    ensures r.Success? && WithinBounds(st) && |name| <= MaxNameLength ==> WithinBounds(r.value.store)
  {
    if ownerId !in st.owners then Failure(DoesNotExist)
    else
      var row := Satellite(name, None, None, None, None, Some(ownerId));
      match InsertSatellite(st, row)
      case Success((st', id)) => Success(Saved(st', id))
      case Failure(e) => Failure(e)
  }

  /** `UpdateSatellite.mutate(id, name)`: only the addressed satellite's name
      changes. */
  function UpdateSatellite(st: Store, id: Id, name: string): (r: Result<Saved, Error>)
    requires Consistent(st)
    ensures id !in st.satellites ==> r == Failure(DoesNotExist)
    ensures id in st.satellites ==> r.Success? && r.value.id == id
    ensures r.Success? ==>
              && var sats := r.value.store.satellites;
                 && sats.Keys == st.satellites.Keys
                 && sats[id].name == name
                 && sats[id].(name := st.satellites[id].name) == st.satellites[id]
                 && (forall s :: s in st.satellites && s != id ==> sats[s] == st.satellites[s])
                 && r.value.store == st.(satellites := sats)
    ensures r.Success? ==> Consistent(r.value.store)
    ensures r.Success? && WithinBounds(st) && |name| <= MaxNameLength ==> WithinBounds(r.value.store)
  {
    if id !in st.satellites then Failure(DoesNotExist)
    else
      var row := st.satellites[id];
      Success(Saved(st.(satellites := st.satellites[id := row.(name := name)]), id))
  }

  // ---- Owner mutations ----

  /** `CreateOwner.mutate(name, country)`: one new owner with exactly these
      fields. */
  function CreateOwner(st: Store, name: string, country: string): (r: Saved)
    requires Consistent(st)
    ensures r.id !in st.owners
    ensures r.store.owners == st.owners[r.id := Owner(name, country)]
    ensures r.store == st.(owners := r.store.owners, nextOwner := r.store.nextOwner)
    ensures Consistent(r.store)
    ensures WithinBounds(st) && |name| <= MaxNameLength && |country| <= MaxCountryLength ==> WithinBounds(r.store)
  {
    var id := st.nextOwner;
    Saved(st.(owners := st.owners[id := Owner(name, country)], nextOwner := id + 1), id)
  }

  /** `UpdateOwner.mutate(id, name=None, country=None)`: each field is
      overwritten only when its argument is given. */
  function UpdateOwner(st: Store, id: Id, name: Option<string>, country: Option<string>): (r: Result<Saved, Error>)
    requires Consistent(st)
    ensures id !in st.owners ==> r == Failure(DoesNotExist)
    ensures id in st.owners ==> r.Success? && r.value.id == id
    ensures r.Success? ==>
              && var owners := r.value.store.owners;
                 && owners.Keys == st.owners.Keys
                 && (name.Some? ==> owners[id].name == name.value)
                 && (name.None? ==> owners[id].name == st.owners[id].name)
                 && (country.Some? ==> owners[id].country == country.value)
                 && (country.None? ==> owners[id].country == st.owners[id].country)
                 && (forall o :: o in st.owners && o != id ==> owners[o] == st.owners[o])
                 && r.value.store == st.(owners := owners)
    ensures r.Success? ==> Consistent(r.value.store)
    ensures (r.Success? && WithinBounds(st) && (name.Some? ==> |name.value| <= MaxNameLength)
             && (country.Some? ==> |country.value| <= MaxCountryLength)) ==> WithinBounds(r.value.store)
  {
    if id !in st.owners then Failure(DoesNotExist)
    else
      var o := st.owners[id];
      var o' := Owner(name.GetOr(o.name), country.GetOr(o.country));
      Success(Saved(st.(owners := st.owners[id := o']), id))
  }

  // ---- Launcher mutations ----

  /** `Satellite.objects.filter(id__in=ids)`: the existing satellites among
      `ids`; unknown keys are dropped. */
  function ExistingSatellites(st: Store, ids: seq<Id>): (r: set<Id>)
    ensures forall s :: s in r <==> s in ids && s in st.satellites
  {
    set s | s in ids && s in st.satellites
  }

  /** An id that names no satellite adds nothing to the filter's answer. */
  lemma UnknownIdIsDropped(st: Store, ids: seq<Id>, u: Id)
    requires u !in st.satellites
    ensures ExistingSatellites(st, ids + [u]) == ExistingSatellites(st, ids)
  {
    assert forall s :: s in ids + [u] <==> s in ids || s == u;
  }

  /** The filter's answer depends only on which ids are given: not on their
      order, nor on repetitions. */
  lemma FilterIgnoresOrderAndRepeats(st: Store, ids: seq<Id>, ids': seq<Id>)
    requires forall s :: s in ids <==> s in ids'
    ensures ExistingSatellites(st, ids) == ExistingSatellites(st, ids')
  {
  }

  /** A launcher linked through the filter has at most as many satellites
      as ids were given. */
  lemma {:induction false} FilterAnswerBounded(st: Store, ids: seq<Id>)
    ensures |ExistingSatellites(st, ids)| <= |ids|
    decreases |ids|
  {
    if ids != [] {
      var init := ids[..|ids| - 1];
      var last := ids[|ids| - 1];
      assert ids == init + [last];
      FilterAnswerBounded(st, init);
      assert ExistingSatellites(st, ids) <= ExistingSatellites(st, init) + {last};
      SubsetSize(ExistingSatellites(st, ids), ExistingSatellites(st, init) + {last});
    }
  }

  /** A subset is no larger than its superset. */
  lemma SubsetSize(a: set<Id>, b: set<Id>)
    requires a <= b
    ensures |a| <= |b|
  {
    assert b == a + (b - a);
  }

  /** `CreateLauncher.mutate(satellite_ids, launcher_type, launch_date)`: one
      new launcher linked to exactly the existing satellites among the ids. */
  function CreateLauncher(st: Store, satelliteIds: seq<Id>, launcherType: string, launchDate: Date): (r: Saved)
    requires Consistent(st)
    ensures r.id !in st.launchers
    ensures r.store.launchers.Keys == st.launchers.Keys + {r.id}
    ensures forall l :: l in st.launchers ==> r.store.launchers[l] == st.launchers[l]
    ensures r.store.launchers[r.id].launcherType == launcherType
    ensures r.store.launchers[r.id].launchDate == launchDate
    ensures forall s :: s in r.store.launchers[r.id].satellites <==> s in satelliteIds && s in st.satellites
    ensures r.store == st.(launchers := r.store.launchers, nextLauncher := r.store.nextLauncher)
    ensures Consistent(r.store)
    ensures WithinBounds(st) && |launcherType| <= MaxLauncherTypeLength ==> WithinBounds(r.store)
  {
    var id := st.nextLauncher;
    var l := Launcher(ExistingSatellites(st, satelliteIds), launcherType, launchDate);
    Saved(st.(launchers := st.launchers[id := l], nextLauncher := id + 1), id)
  }

  /** `UpdateLauncher.mutate(id, launcher_type=None, launch_date=None,
      satellite_ids=None)`: each field changes only when its argument is
      given; a given id list (even an empty one) replaces the links by the
      existing satellites among it. */
  function UpdateLauncher(st: Store, id: Id, launcherType: Option<string>, launchDate: Option<Date>,
                          satelliteIds: Option<seq<Id>>): (r: Result<Saved, Error>)
    requires Consistent(st)
    ensures id !in st.launchers ==> r == Failure(DoesNotExist)
    ensures id in st.launchers ==> r.Success? && r.value.id == id
    ensures r.Success? ==>
              && var ls := r.value.store.launchers;
                 && ls.Keys == st.launchers.Keys
                 && (launcherType.Some? ==> ls[id].launcherType == launcherType.value)
                 && (launcherType.None? ==> ls[id].launcherType == st.launchers[id].launcherType)
                 && (launchDate.Some? ==> ls[id].launchDate == launchDate.value)
                 && (launchDate.None? ==> ls[id].launchDate == st.launchers[id].launchDate)
                 && (satelliteIds.Some? ==> forall s :: s in ls[id].satellites <==> s in satelliteIds.value && s in st.satellites)
                 && (satelliteIds.None? ==> ls[id].satellites == st.launchers[id].satellites)
                 && (forall l :: l in st.launchers && l != id ==> ls[l] == st.launchers[l])
                 && r.value.store == st.(launchers := ls)
    ensures r.Success? ==> Consistent(r.value.store)
    ensures r.Success? && WithinBounds(st) && (launcherType.Some? ==> |launcherType.value| <= MaxLauncherTypeLength)
            ==> WithinBounds(r.value.store)
  {
    if id !in st.launchers then Failure(DoesNotExist)
    else
      var l := st.launchers[id];
      var sats := if satelliteIds.Some? then ExistingSatellites(st, satelliteIds.value) else l.satellites;
      var l' := Launcher(sats, launcherType.GetOr(l.launcherType), launchDate.GetOr(l.launchDate));
      Success(Saved(st.(launchers := st.launchers[id := l']), id))
  }

  // ---- Payload mutations ----

  /** `CreatePayload.mutate` exactly as written: the satellite must exist,
      and an omitted `description` reaches `save()` as `None`, which the
      NOT NULL `description` column rejects. */
  function CreatePayloadAsWritten(st: Store, provider: string, satelliteId: Id, kind: string,
                                  description: Option<string>): (r: Result<Saved, Error>)
    requires Consistent(st)
    ensures satelliteId !in st.satellites ==> r == Failure(DoesNotExist)
    ensures satelliteId in st.satellites && description.None? ==> r == Failure(IntegrityError(PayloadDescriptionNotNull))
    ensures r.Success? <==> satelliteId in st.satellites && description.Some?
    ensures r.Success? ==>
              && r.value.id !in st.payloads
              && r.value.store.payloads == st.payloads[r.value.id := Payload(provider, satelliteId, kind, description.value)]
              && r.value.store == st.(payloads := r.value.store.payloads, nextPayload := r.value.store.nextPayload)
              && Consistent(r.value.store)
    ensures r.Success? && WithinBounds(st) && |provider| <= MaxProviderLength && |kind| <= MaxPayloadTypeLength
            ==> WithinBounds(r.value.store)
  {
    if satelliteId !in st.satellites then Failure(DoesNotExist)
    else if description.None? then Failure(IntegrityError(PayloadDescriptionNotNull))
    else
      var id := st.nextPayload;
      Success(Saved(st.(payloads := st.payloads[id := Payload(provider, satelliteId, kind, description.value)],
                        nextPayload := id + 1), id))
  }

  /** The argument declared optional cannot in fact be omitted: on any store
      holding a satellite, leaving out `description` makes the as-written
      mutation fail, whatever the other arguments, while the corrected one
      succeeds. */
  lemma CreatePayloadRejectsOmittedDescription(st: Store, provider: string, satelliteId: Id, kind: string)
    requires Consistent(st) && satelliteId in st.satellites
    ensures CreatePayloadAsWritten(st, provider, satelliteId, kind, None) == Failure(IntegrityError(PayloadDescriptionNotNull))
    ensures CreatePayload(st, provider, satelliteId, kind, None).Success?
  {
  }

  /** `CreatePayload.mutate` with `description` optional as declared: the
      satellite must exist, and an omitted description is stored as the
      empty text. */
  function CreatePayload(st: Store, provider: string, satelliteId: Id, kind: string,
                         description: Option<string>): (r: Result<Saved, Error>)
    requires Consistent(st)
    ensures satelliteId !in st.satellites ==> r == Failure(DoesNotExist)
    ensures satelliteId in st.satellites ==> r.Success?
    ensures r.Success? ==>
              && r.value.id !in st.payloads
              && r.value.store.payloads.Keys == st.payloads.Keys + {r.value.id}
              && (forall p :: p in st.payloads ==> r.value.store.payloads[p] == st.payloads[p])
              && r.value.store.payloads[r.value.id].provider == provider
              && r.value.store.payloads[r.value.id].satellite == satelliteId
              && r.value.store.payloads[r.value.id].kind == kind
              && (description.Some? ==> r.value.store.payloads[r.value.id].description == description.value)
              && (description.None? ==> r.value.store.payloads[r.value.id].description == "")
              && r.value.store == st.(payloads := r.value.store.payloads, nextPayload := r.value.store.nextPayload)
    ensures r.Success? ==> Consistent(r.value.store)
    ensures r.Success? && WithinBounds(st) && |provider| <= MaxProviderLength && |kind| <= MaxPayloadTypeLength
            ==> WithinBounds(r.value.store)
  {
    CreatePayloadAsWritten(st, provider, satelliteId, kind, Some(description.GetOr("")))
  }

  /** Overwrites payload `id` with a row whose satellite exists. */
  function ReplacePayload(st: Store, id: Id, p: Payload): (r: Store)
    requires Consistent(st) && id in st.payloads && p.satellite in st.satellites
    ensures r.payloads == st.payloads[id := p] && r == st.(payloads := r.payloads)
    ensures Consistent(r)
    ensures WithinBounds(st) && |p.provider| <= MaxProviderLength && |p.kind| <= MaxPayloadTypeLength ==> WithinBounds(r)
  {
    st.(payloads := st.payloads[id := p])
  }

  /** `UpdatePayload.mutate(id, provider=None, satellite_id=None, type=None,
      description=None)`: each field changes only when its argument is
      given; a new `satellite_id` must name an existing satellite, or the
      foreign key check rejects the write. */
  function UpdatePayload(st: Store, id: Id, provider: Option<string>, satelliteId: Option<Id>,
                         kind: Option<string>, description: Option<string>): (r: Result<Saved, Error>)
    requires Consistent(st)
    ensures id !in st.payloads ==> r == Failure(DoesNotExist)
    ensures id in st.payloads && satelliteId.Some? && satelliteId.value !in st.satellites ==>
              r == Failure(IntegrityError(PayloadSatelliteKey))
    ensures r.Success? <==> id in st.payloads && (satelliteId.Some? ==> satelliteId.value in st.satellites)
    ensures r.Success? ==>
              && var ps := r.value.store.payloads;
                 && r.value.id == id
                 && ps.Keys == st.payloads.Keys
                 && (provider.Some? ==> ps[id].provider == provider.value)
                 && (provider.None? ==> ps[id].provider == st.payloads[id].provider)
                 && (satelliteId.Some? ==> ps[id].satellite == satelliteId.value)
                 && (satelliteId.None? ==> ps[id].satellite == st.payloads[id].satellite)
                 && (kind.Some? ==> ps[id].kind == kind.value)
                 && (kind.None? ==> ps[id].kind == st.payloads[id].kind)
                 && (description.Some? ==> ps[id].description == description.value)
                 && (description.None? ==> ps[id].description == st.payloads[id].description)
                 && (forall p :: p in st.payloads && p != id ==> ps[p] == st.payloads[p])
                 && r.value.store == st.(payloads := ps)
    ensures r.Success? ==> Consistent(r.value.store)
    ensures (r.Success? && WithinBounds(st) && (provider.Some? ==> |provider.value| <= MaxProviderLength)
             && (kind.Some? ==> |kind.value| <= MaxPayloadTypeLength)) ==> WithinBounds(r.value.store)
  {
    if id !in st.payloads then Failure(DoesNotExist)
    else if satelliteId.Some? && satelliteId.value !in st.satellites then Failure(IntegrityError(PayloadSatelliteKey))
    else
      var p := st.payloads[id];
      var p' := Payload(provider.GetOr(p.provider), satelliteId.GetOr(p.satellite), kind.GetOr(p.kind),
                        description.GetOr(p.description));
      assert p'.satellite in st.satellites;
      Success(Saved(ReplacePayload(st, id, p'), id))
  }

  // ---- Properties relating several calls ----

  /** A created owner appears in the next `allOwners` answer, which grows by
      exactly that one row. */
  lemma CreatedOwnerIsListed(st: Store, name: string, country: string)
    requires Consistent(st)
    ensures var r := CreateOwner(st, name, country);
            && (exists i :: 0 <= i < |AllOwners(r.store)| && AllOwners(r.store)[i] == (r.id, Owner(name, country)))
            && |AllOwners(r.store)| == |AllOwners(st)| + 1
  {
    var r := CreateOwner(st, name, country);
    ListingAfterInsert(st.owners, r.id, Owner(name, country), AllOwners(st), AllOwners(r.store));
  }

  /** A created satellite appears in the next `allSatellites` answer, which
      grows by exactly that one row. */
  lemma CreatedSatelliteIsListed(st: Store, name: string, ownerId: Id)
    requires Consistent(st) && ownerId in st.owners
    ensures var r := CreateSatellite(st, name, ownerId);
            && r.Success?
            && (exists i :: 0 <= i < |AllSatellites(r.value.store)| &&
                  AllSatellites(r.value.store)[i] == (r.value.id, Satellite(name, None, None, None, None, Some(ownerId))))
            && |AllSatellites(r.value.store)| == |AllSatellites(st)| + 1
  {
    var r := CreateSatellite(st, name, ownerId);
    ListingAfterInsert(st.satellites, r.value.id, Satellite(name, None, None, None, None, Some(ownerId)),
                       AllSatellites(st), AllSatellites(r.value.store));
  }

  /** `updateOwner` with neither field given saves the row unchanged. */
  lemma UpdateOwnerWithoutFieldsIsIdentity(st: Store, id: Id)
    requires Consistent(st) && id in st.owners
    ensures UpdateOwner(st, id, None, None) == Success(Saved(st, id))
  {
    var r := UpdateOwner(st, id, None, None);
    assert r.value.store.owners == st.owners;
  }

  /** Renaming a satellite back to its former name restores the store. */
  lemma RenameSatelliteBack(st: Store, id: Id, name: string)
    requires Consistent(st) && id in st.satellites
    ensures var r := UpdateSatellite(st, id, name);
            r.Success? && UpdateSatellite(r.value.store, id, st.satellites[id].name) == Success(Saved(st, id))
  {
    var row := st.satellites[id];
    var st1 := st.(satellites := st.satellites[id := row.(name := name)]);
    assert UpdateSatellite(st, id, name) == Success(Saved(st1, id));
    assert st1.satellites[id := row] == st.satellites;
  }

  /** Two updates of an owner amount to one carrying, per field, the later
      value when given and the earlier one otherwise. */
  lemma UpdateOwnerTwice(st: Store, id: Id, n1: Option<string>, c1: Option<string>, n2: Option<string>, c2: Option<string>)
    requires Consistent(st) && id in st.owners
    ensures var first := UpdateOwner(st, id, n1, c1);
            && first.Success?
            && UpdateOwner(first.value.store, id, n2, c2)
               == UpdateOwner(st, id, if n2.Some? then n2 else n1, if c2.Some? then c2 else c1)
  {
    var o := st.owners[id];
    var o1 := Owner(n1.GetOr(o.name), c1.GetOr(o.country));
    var o2 := Owner(n2.GetOr(o1.name), c2.GetOr(o1.country));
    var st1 := st.(owners := st.owners[id := o1]);
    assert UpdateOwner(st, id, n1, c1) == Success(Saved(st1, id));
    assert UpdateOwner(st1, id, n2, c2) == Success(Saved(st1.(owners := st1.owners[id := o2]), id));
    assert st1.owners[id := o2] == st.owners[id := o2];
  }

  /** Launchers share satellites: two launchers created with the same
      existing satellite both link it, and neither link displaces the other. */
  lemma LaunchersShareSatellites(st: Store, s: Id, ids1: seq<Id>, ids2: seq<Id>, t1: string, t2: string, d1: Date, d2: Date)
    requires Consistent(st) && s in st.satellites && s in ids1 && s in ids2
    ensures var a := CreateLauncher(st, ids1, t1, d1);
            var b := CreateLauncher(a.store, ids2, t2, d2);
            && a.id != b.id
            && s in b.store.launchers[a.id].satellites
            && s in b.store.launchers[b.id].satellites
  {
  }

  /** Deleting a satellite removes the payloads created for it (`CASCADE`). */
  lemma PayloadDiesWithSatellite(st: Store, provider: string, s: Id, kind: string, description: Option<string>)
    requires Consistent(st) && s in st.satellites
    ensures var r := CreatePayload(st, provider, s, kind, description);
            && r.Success?
            && r.value.id !in DeleteSatellite(r.value.store, s).payloads
            && Consistent(DeleteSatellite(r.value.store, s))
  {
  }

  /** Deleting an owner keeps the satellite created for it but clears its
      owner (`SET_NULL`); the satellite can no longer name a missing owner. */
  lemma SatelliteOutlivesOwner(st: Store, name: string, o: Id)
    requires Consistent(st) && o in st.owners
    ensures var r := CreateSatellite(st, name, o);
            && r.Success?
            && r.value.id in DeleteOwner(r.value.store, o).satellites
            && DeleteOwner(r.value.store, o).satellites[r.value.id] == Satellite(name, None, None, None, None, None)
  {
  }
}

=== FILE: wrappers.dfy ===
/** Wrappers used across the model: an optional value (Python's `None` or a
    missing dictionary key) and a result that is either a value or the
    exception the source would raise. */
module Wrappers {

  datatype Option<+T> = None | Some(value: T) {

    /** The wrapped value, or `default` when there is none. */
    function GetOr(default: T): (r: T) {
      match this
      case Some(v) => v
      case None => default
    }
  }

  datatype Result<+R, +E> = Success(value: R) | Failure(error: E)
}
